=== FILE: README.md ===
# starfish configuration and transforms list, modelled in Dafny

This project models two parts of starfish, the image-based transcriptomics
toolkit.

**Configuration layer.** It has three pieces:

- **`NestedDict`**: an auto-vivifying nested mapping. `d[a][b][c] = v` creates
  the missing levels, and `update` merges mappings recursively.
- **`Config`**: a configuration parsed from a mapping, a JSON string, or an
  `@file` reference. Its `lookup(path, default, remove)` walks a key path,
  falls back to a default, and can delete what it found. A deletion prunes
  every enclosing mapping that it leaves empty.
- **`StarfishConfig`**: a `Config` named by `STARFISH_CONFIG`, with
  environment variables laid over it. The `slicedimage` section and the
  `validation.strict` flag are then taken out of it. Warnings are given for
  unknown `STARFISH_` variables, for options set under both their `STARFISH_`
  name and their older unprefixed name, and for configuration that nothing
  consumed.

**`TransformsList`**: the list of `(selectors, transform type, transform
object)` entries used by image registration. It supports in-place `append`,
and the encoding and decoding loops of `to_json` and `from_json`.

## Layout

- `wrappers.dfy`: `Option` and `Result`.
- `config_values.dfy`: JSON values, key paths, and the walk `Find` that
  `lookup` performs.
- `nested_dict.dfy`: assignment through missing levels (`SetIn`), recursive
  `update` (`Merge`), and the `NestedDict` class that changes its `root`
  field in place.
- `config.dfy`: loading, `lookup` with default and removal (`Prune`,
  `RemoveAt`), the walk as a loop (`Walk`), and the `Config` class.
- `starfish_config.dfy`:
  - the environment and its options;
  - parsing of variable values;
  - the overlay (`Overlay`), the extraction of sections (`TakeSections`),
    and the whole construction as a function (`Resolve`);
  - the step-by-step construction as a method (`Build`);
  - a second module, `StarfishConfigProperties`, with the precedence
    properties and the scenarios of the tests.
- `transforms_list.dfy`: axes and transform types with their string values,
  entry encoding and decoding, and the `TransformsList` class.

The loops and stateful operations are each proved equal to a specification
function, and the properties are proved about those functions:

- `Configs.Walk` computes `Find`.
- `NestedDict.Assign` computes `SetIn`, and `NestedDict.Update` computes
  `Merge`.
- `Config.Load` computes `LoadData`, and `Config.Lookup` computes
  `WithDefault` of `Find` and, with `remove`, `RemoveAt`.
- `ScanEnvironment` computes `UnknownVariables`.
- `ApplyOverlays` computes `Overlay` and `DuplicateWarnings`.
- `ConsumeSections` computes `TakeSections`.
- `Build` computes `Resolve`.
- `TransformsList.ToJson` computes `EncodeAll`, and `DecodeEntries` and
  `TransformsList.FromJson` compute `DecodeAll`.
- `NestedDict.Get` and `TransformsList.Append` are specified directly by
  their new state.

Choices the configuration tests fix:

- `strict` is off when nothing sets it (test_config.py:198-200).
- Environment overrides come from a fixed table of options: the cache size
  limit, the cache directory, and the strict flag. Each option has a path
  and a value parser. A table is needed because the key `size_limit`
  (test_config.py:161-171) contains an underscore, so it cannot be read off
  the variable name by splitting it at underscores.
- Setting both spellings of an option to different values gives one
  duplicate warning, and the STARFISH_ value wins (test_config.py:211-220).

Choices the model makes where the tests set no value that decides them:

- A duplicate warning is given whenever both spellings of an option are set,
  even to the same value. So `SLICEDIMAGE_CACHING_DIRECTORY=foo` together
  with `STARFISH_SLICEDIMAGE_CACHING_DIRECTORY=foo` still warns once. The
  tests only set two different values.
- Each option's text is parsed by that option's own parser. The size limit
  is read as an integer, `strict` as a flag and the directory as text. A
  size limit that is not an integer is an error, so
  `STARFISH_SLICEDIMAGE_CACHING_SIZE_LIMIT=abc` makes construction fail with
  InvalidValue. The tests only use the texts "1", "true", "TRUE", "false",
  "foo" and "bar". On those texts a single parser that tries a flag, then an
  integer, then text gives the same results.

## Model

| member | source | states |
|---|---|---|
| ConfigValues.Find | starfish/core/config/test/test_config.py:47-62 | The empty path gives the value itself; walking into a value that is not a mapping fails with NotIndexable (AttributeError); KeyNotFound (KeyError) comes only from a mapping that lacks the key; a successful walk starts at a mapping holding the first key |
| ConfigValues.FindAppend | starfish/core/config/test/test_config.py:55-62 | Walking `p + q` is walking `p` and then `q` from where `p` ended; a failure along `p` is the failure of the whole walk |
| ConfigValues.FindPrefixIsMap | starfish/core/config/test/test_config.py:55-62 | A walk that succeeds passes through a mapping at every strict prefix of its path |
| NestedDicts.SetIn | starfish/core/config/test/test_config.py:17 | An assignment fails only with NotIndexable; on success the top-level keys are the old keys plus the first key of the path |
| NestedDicts.SetInSucceedsIff | starfish/core/config/test/test_config.py:17-20 | An assignment succeeds exactly when no strict prefix of the path already holds a non-mapping value |
| NestedDicts.SetThenFind | starfish/core/config/test/test_config.py:19-20 | Reading back the assigned path gives the assigned value |
| NestedDicts.SetFrame | starfish/core/config/test/test_config.py:19-20 | An assignment leaves every path unrelated to the assigned one unchanged |
| NestedDicts.AssignUnderFreshKey | starfish/core/config/test/test_config.py:17 | Auto-vivification: a path whose first key is absent can always be assigned, and reads back the value |
| NestedDicts.Merge | starfish/core/config/test/test_config.py:18 | `update` keeps every old key and adds every incoming one; keys only in the old mapping keep their values |
| NestedDicts.MergeInventsNothing | starfish/core/config/test/test_config.py:18 | Every path that can be found after `update` could be found in the existing mapping or in the incoming one; `update` adds nothing else |
| NestedDicts.MergeIdempotent | starfish/core/config/test/test_config.py:18 | Updating twice with the same mapping equals updating once |
| NestedDicts.MergeSelf | starfish/core/config/test/test_config.py:18 | Updating a mapping with itself leaves it unchanged |
| NestedDicts.MergeShowsIncoming | starfish/core/config/test/test_config.py:18 | Every non-mapping leaf of the incoming mapping can be read after `update` |
| NestedDicts.MergeKeepsUnshadowed | starfish/core/config/test/test_config.py:17-18 | A leaf of the old mapping that the incoming mapping has no entry for survives `update` |
| NestedDicts.NestedDict.constructor | starfish/core/config/test/test_config.py:15 | A new NestedDict is empty |
| NestedDicts.NestedDict.Get | starfish/core/config/test/test_config.py:17 | Indexing a missing key stores and returns an empty mapping; an existing key is returned unchanged |
| NestedDicts.NestedDict.Assign | starfish/core/config/test/test_config.py:17-20 | The new root is the assignment's result, succeeding exactly when nothing on the way is a non-mapping; the value reads back; a failed assignment changes nothing |
| NestedDicts.NestedDict.Update | starfish/core/config/test/test_config.py:18 | The new root is the recursive merge of the old root and the incoming mapping |
| NestedDicts.NestedDictScenario | starfish/core/config/test/test_config.py:13-20 | The test's operations all succeed, and 9, 10 and 7 are found at `1.2`, `1.8` and `3.4.5.6` |
| Configs.LoadData | starfish/core/config/test/test_config.py:30-44 | A mapping is taken as it is; a missing `@file` is the only way to get FileNotFound |
| Configs.SameDataFromEverySource | starfish/core/config/test/test_config.py:30-44 | A JSON text, the mapping it decodes to, and `@file` naming a file holding the text all give the same data |
| Configs.WithDefault | starfish/core/config/test/test_config.py:47-62 | A found value is returned; on either failure a supplied default replaces it, and without one the failure stands |
| Configs.Prune | starfish/core/config/test/test_config.py:89-94 | Removal only ever deletes the path's first key from the top level |
| Configs.RemoveAt | starfish/core/config/test/test_config.py:89-106 | With `remove`, a failed or empty-path lookup leaves the data unchanged; a found path can no longer be found afterwards; a mapping stays a mapping and gains no key |
| Configs.PruneRemovesKey | starfish/core/config/test/test_config.py:89-94 | The removed path can no longer be found |
| Configs.PruneUnrelated | starfish/core/config/test/test_config.py:78-94 | Removal leaves every path unrelated to the removed one unchanged |
| Configs.PruneAncestor | starfish/core/config/test/test_config.py:78-106 | Each enclosing mapping becomes what removal leaves of it, and disappears exactly when that is empty (the top level is kept) |
| Configs.Walk | starfish/core/config/test/test_config.py:55-62 | The loop over the path gives the value, KeyNotFound or NotIndexable exactly as `Find` does |
| Configs.Config.constructor | starfish/core/config/test/test_config.py:36 | A Config holds the data it was built from |
| Configs.Config.Load | starfish/core/config/test/test_config.py:30-44 | Construction succeeds exactly when loading does, with the loaded data, and otherwise reports the loading error |
| Configs.Config.Lookup | starfish/core/config/test/test_config.py:47-106 | Returns the found value or the default; with `remove` the data becomes the pruned data, otherwise it is unchanged |
| Configs.LookupFailures | starfish/core/config/test/test_config.py:47-62 | A missing key gives KeyNotFound, indexing a list gives NotIndexable, and a default replaces either |
| Configs.StepwiseRemoval | starfish/core/config/test/test_config.py:78-94 | Removing `a.b.c`, then `a.b`, then `a` gives exactly the three mappings the test expects |
| Configs.RemoveOnlyLeaf | starfish/core/config/test/test_config.py:97-106 | Removing the only leaf empties the whole configuration |
| StarfishConfigs.Getenv | starfish/core/config/test/test_config.py:198-202 | A variable is found exactly when some entry names it, with that entry's text |
| StarfishConfigs.OptionPathsUnrelated | starfish/core/config/test/test_config.py:161-188 | The options' paths are pairwise unrelated; only `validation.strict` lies outside `slicedimage` |
| StarfishConfigs.ParseIntText | starfish/core/config/test/test_config.py:161-171 | Parsing the decimal text of any integer gives that integer |
| StarfishConfigs.ParseFlag | starfish/core/config/test/test_config.py:182-188 | A flag text is on exactly when, with its ASCII capitals lowered, it reads `true` |
| StarfishConfigs.FlagTexts | starfish/core/config/test/test_config.py:182-188 | `true`, `True` and `TRUE` are on; `false`, the empty text and `1` are off |
| StarfishConfigs.ParseValue | starfish/core/config/test/test_config.py:161-188 | Integer options parse exactly the integer texts; flags and text options always parse |
| StarfishConfigs.UnknownVariablesExact | starfish/core/config/test/test_config.py:204-209 | A name is reported exactly when it is set and is a `STARFISH_` variable that names no option |
| StarfishConfigs.NoneUnknown | starfish/core/config/test/test_config.py:190-196 | Without unknown `STARFISH_` variables no variable is reported |
| StarfishConfigs.UnknownVariablesOnce | starfish/core/config/test/test_config.py:204-209 | Each unknown variable is reported once |
| StarfishConfigs.ScanEnvironment | starfish/core/config/test/test_config.py:204-209 | The scan loop reports exactly the unknown variables, in environment order |
| StarfishConfigs.UnknownVariables | starfish/core/config/test/test_config.py:204-209 | At most one report per environment entry, and every reported name is a `STARFISH_` variable that names no option |
| StarfishConfigs.Override | starfish/core/config/test/test_config.py:161-171 | The `STARFISH_` variable wins over the older name; an option is unset exactly when neither is set |
| StarfishConfigs.DuplicateWarnings | starfish/core/config/test/test_config.py:211-220 | At most one warning per option, and every warning is a duplicated-variable warning |
| StarfishConfigs.DuplicateWarningsExact | starfish/core/config/test/test_config.py:211-220 | A name is warned about as duplicated exactly when it is the older name of an option set under both of its names |
| StarfishConfigs.DuplicateWarningsOnce | starfish/core/config/test/test_config.py:216-220 | No duplicated option is warned about twice |
| StarfishConfigs.ApplyOption | starfish/core/config/test/test_config.py:161-188 | An unset option changes nothing; a failure names the variable that was read; on success a mapping gains only the option's top-level key |
| StarfishConfigs.ApplyOptionResult | starfish/core/config/test/test_config.py:161-188 | InvalidValue exactly when the text does not parse, NotAMapping exactly when it parses but a non-mapping lies on the option's way; on success the option reads back as the environment sets it |
| StarfishConfigs.Overlay | starfish/core/config/test/test_config.py:161-188 | Nothing changes when no option is set; a non-mapping is left as it is; a mapping keeps its keys and gains at most `slicedimage` and `validation` |
| StarfishConfigs.OverlayFailure | starfish/core/config/test/test_config.py:161-188 | A failed overlay names a variable that is set and whose value could not be parsed or placed |
| StarfishConfigs.ApplyStep | starfish/core/config/test/test_config.py:161-188 | One iteration of the overlay loop advances both the overlay and the duplicate warnings by one option |
| StarfishConfigs.OverlayFrame | starfish/core/config/test/test_config.py:190-196 | The overlay leaves every path unrelated to the options unchanged |
| StarfishConfigs.OverlayFind | starfish/core/config/test/test_config.py:161-188 | After the overlay each option holds its parsed variable if one is set, and otherwise what the base configuration had |
| StarfishConfigs.UnknownVariableWarnings | starfish/core/config/test/test_config.py:204-209 | One UnknownVariable warning per reported name, in order |
| StarfishConfigs.BaseConfig | starfish/core/config/test/test_config.py:109-112 | Unset STARFISH_CONFIG gives an empty configuration; loading fails only when it is set, and FileNotFound only for an `@` name missing from the file system |
| StarfishConfigs.TakeSections | starfish/core/config/test/test_config.py:173-196 | `slicedimage` is the file's section or empty; `strict` is the truthiness of `validation.strict` or off; both are gone from the leftover data, and every path unrelated to both reads in the leftover as it did in the input; exactly one warning, naming the leftover, is added when the leftover is truthy |
| StarfishConfigs.RemoveSectionsFrame | starfish/core/config/test/test_config.py:109-112 | Removing `slicedimage` and then `validation.strict` leaves every path unrelated to both as it was, whatever the data |
| StarfishConfigs.Resolve | starfish/core/config/test/test_config.py:109-220 | A failed load is reported as LoadFailed; any other failure is the overlay's failure; the warnings are the unknown-variable ones, then the duplicate ones, then at most one more |
| StarfishConfigs.ConsumeSections | starfish/core/config/test/test_config.py:190-196 | Taking the sections out of a Config with `lookup(..., remove=True)` gives the configuration `TakeSections` specifies |
| StarfishConfigs.ApplyOverlays | starfish/core/config/test/test_config.py:161-188 | The loop over the options gives the overlay, and on success exactly the duplicate warnings |
| StarfishConfigs.Build | starfish/core/config/test/test_config.py:161-220 | The step-by-step construction gives exactly `Resolve` of the environment, the files and the decoder |
| StarfishConfigProperties.StrictFromEnvironmentOrFile | starfish/core/config/test/test_config.py:173-188 | `strict` is the flag variable when set, else the truthiness of `validation.strict` in the file, else off |
| StarfishConfigProperties.SlicedImageFromEnvironmentOrFile | starfish/core/config/test/test_config.py:161-171 | Each cache option in `slicedimage` is its parsed variable (`STARFISH_` first, then the older name) if set, else the file's value, else absent |
| StarfishConfigProperties.SizeLimitFromEitherVariable | starfish/core/config/test/test_config.py:161-171 | Setting either spelling of the size-limit variable to `1` makes the cache size limit 1 |
| StarfishConfigProperties.ResolveDuplicateWarnings | starfish/core/config/test/test_config.py:211-220 | In the built configuration a name is warned about as duplicated exactly when it is the older name of an option set under both names, and at most once |
| StarfishConfigProperties.ResolveLeftoverWarning | starfish/core/config/test/test_config.py:190-196 | A leftover warning is given exactly when the overlaid configuration minus `slicedimage` and `validation.strict` is truthy, and at most one is given |
| StarfishConfigProperties.ResolveKeepsUnconsumed | starfish/core/config/test/test_config.py:109-112 | For every environment and file, a constructed configuration's leftover data reads every path outside `slicedimage` and `validation.strict` exactly as the STARFISH_CONFIG configuration gave it; the UnknownConfig warning carries that leftover |
| StarfishConfigProperties.ResolveLeftoverPayload | starfish/core/config/test/test_config.py:190-196 | Every UnknownConfig warning of a constructed configuration names exactly the leftover data that configuration keeps |
| StarfishConfigProperties.LeftoverWarnedOnce | starfish/core/config/test/test_config.py:190-196 | Section extraction adds a leftover warning exactly when the leftover is truthy, and never two |
| StarfishConfigProperties.OverlayKeepsKnown | starfish/core/config/test/test_config.py:161-188 | Laying the options over a configuration holding only the known sections keeps it so |
| StarfishConfigProperties.KnownSectionsLeaveNothing | starfish/core/config/test/test_config.py:173-196 | Taking `slicedimage` and `validation.strict` out of such a configuration leaves an empty mapping |
| StarfishConfigProperties.KnownSectionsNoLeftoverWarning | starfish/core/config/test/test_config.py:190-196 | A file holding only `slicedimage` and `validation.strict` gives no leftover warning, whatever the environment sets |
| StarfishConfigProperties.ConfigFromLiteral | starfish/core/config/test/test_config.py:109-112 | STARFISH_CONFIG holding JSON text gives that text's data, and it is kept as the leftover configuration |
| StarfishConfigProperties.EmptyEnvironment | starfish/core/config/test/test_config.py:198-200 | With nothing set, the configuration is empty, not strict and without warnings |
| StarfishConfigProperties.StrictVariable | starfish/core/config/test/test_config.py:201-202 | STARFISH_VALIDATION_STRICT=true turns strict mode on without warnings |
| StarfishConfigProperties.UnknownConfigKeyWarnsOnce | starfish/core/config/test/test_config.py:190-196 | A leftover `unknown` key beside a size-limit override gives exactly one warning |
| StarfishConfigProperties.UnknownVariableWarnsOnce | starfish/core/config/test/test_config.py:204-209 | STARFISH_UNKNOWN gives exactly one warning |
| StarfishConfigProperties.DuplicateVariableWarnsOnce | starfish/core/config/test/test_config.py:211-220 | With both spellings of the cache directory set, the `STARFISH_` value `bar` wins, with exactly one warning |
| TransformsLists.ParseAxis | starfish/core/image/_registration/transforms_list.py:98 | `Axes(s)` gives the axis whose value is `s`, and fails exactly when no axis has that value |
| TransformsLists.AxisRoundTrip | starfish/core/image/_registration/transforms_list.py:98 | `Axes(a.value)` is `a` |
| TransformsLists.ParseType | starfish/core/image/_registration/transforms_list.py:99 | `TransformType(s)` gives the type whose value is `s`, and fails exactly when none has it |
| TransformsLists.TypeRoundTrip | starfish/core/image/_registration/transforms_list.py:99 | `TransformType(t.value)` is `t` |
| TransformsLists.EncodeSelectors | starfish/core/image/_registration/transforms_list.py:72 | The encoded selectors hold each axis's value as key with the same count, and nothing else |
| TransformsLists.DecodeSelectors | starfish/core/image/_registration/transforms_list.py:98 | Decoding fails exactly when some key is not an axis value; otherwise each axis maps to the count under its value |
| TransformsLists.SelectorsRoundTrip | starfish/core/image/_registration/transforms_list.py:98 | Decoding encoded selectors gives them back |
| TransformsLists.SelectorsDecodeEncode | starfish/core/image/_registration/transforms_list.py:72 | Encoding decoded selectors gives back what was read |
| TransformsLists.EncodeEntry | starfish/core/image/_registration/transforms_list.py:70-73 | The written selectors decode back to the entry's selectors, the written type parses back to its type, and the matrix is written as it is |
| TransformsLists.DecodeEntry | starfish/core/image/_registration/transforms_list.py:97-100 | An invalid axis, then an invalid type, then a type missing from `transformsTypeMapping` (lines 12-14) fail in that order; a decoded object is of the class its type maps to |
| TransformsLists.DecodeThenEncode | starfish/core/image/_registration/transforms_list.py:71-73 | Encoding a decoded entry gives back the JSON entry that was read |
| TransformsLists.EntryRoundTrip | starfish/core/image/_registration/transforms_list.py:97-101 | An entry whose object is of the class its type maps to survives encoding then decoding |
| TransformsLists.EncodeAll | starfish/core/image/_registration/transforms_list.py:68-73 | One encoded entry per entry, in the same order |
| TransformsLists.DecodeAll | starfish/core/image/_registration/transforms_list.py:97-101 | Decoding succeeds exactly when every entry decodes, giving one entry per element in order |
| TransformsLists.FirstFailure | starfish/core/image/_registration/transforms_list.py:97-101 | A failed decoding reports the error of the first entry that fails |
| TransformsLists.PrefixFailure | starfish/core/image/_registration/transforms_list.py:97-101 | A prefix that fails to decode makes the whole array fail with the same error |
| TransformsLists.ListRoundTrip | starfish/core/image/_registration/transforms_list.py:97-102 | Decoding the encoded list gives the entries back |
| TransformsLists.ArrayRoundTrip | starfish/core/image/_registration/transforms_list.py:68-73 | Encoding a decoded array gives the array back |
| TransformsLists.DecodeEntries | starfish/core/image/_registration/transforms_list.py:93-101 | The decoding loop gives exactly `DecodeAll` of the array |
| TransformsLists.TransformsList.constructor | starfish/core/image/_registration/transforms_list.py:34-38 | A missing or empty list gives an empty list; a non-empty one is stored as given |
| TransformsLists.TransformsList.Append | starfish/core/image/_registration/transforms_list.py:58 | Exactly one entry is added at the end; earlier entries are unchanged |
| TransformsLists.TransformsList.ToJson | starfish/core/image/_registration/transforms_list.py:68-73 | The encoding loop gives one encoded entry per entry, in order |
| TransformsLists.TransformsList.FromJson | starfish/core/image/_registration/transforms_list.py:93-102 | A new list holding the decoded entries, or the first decoding error |
| TransformsLists.SaveAndLoad | starfish/core/image/_registration/transforms_list.py:68-102 | Writing a list and reading it back gives a list with the same entries |

## Left out

- The source of `NestedDict`, `Config` and `StarfishConfig` (the module starfish/core/util/config.py and the package starfish.core.config, from which test_config.py:9-10 imports them) is not part of this model. Their behaviour is taken from the assertions of starfish/core/config/test/test_config.py.
- JSON decoding, reading files and the process environment are parameters. They are a decoder function, a map from file names to contents, and a sequence of variable name and value pairs in iteration order.
- When STARFISH_CONFIG is unset, the model starts from an empty configuration. It does not model reading a default user file.
- The `environ` context manager of the tests is not modelled. A scenario writes its effect as the environment it leaves: a name that already starts with `STARFISH_` or `SLICEDIMAGE_` is set as it is, and any other name is set with the `STARFISH_` prefix (`UNKNOWN` becomes `STARFISH_UNKNOWN`, test_config.py:206).
- The cache tests (test_config.py:115-159) exercise an on-disk cache and image loading. They are not modelled.
- The fixed option table replaces splitting arbitrary variable names into key paths. An unknown `STARFISH_` variable is warned about and not laid over the configuration.
- `Value` keys are strings. The integer keys of the NestedDict test are written as strings.
- Floating-point equality (`5e9 == 5 * 10 ** 9`, test_config.py:75) is not modelled. Numbers are `int` or `real`.
- StarfishConfigs.ParseValue: integer text is an optional sign followed by decimal digits. Python's `int()` also accepts surrounding whitespace and `_` digit separators, which the model rejects.
- StarfishConfigs.ParseValue: a flag is on only when its text spells `true` in some letter case. Other spellings that mean "on" are not recognised.
- Warnings are collected in a sequence. Their message text and the `warnings` module are not modelled.
- NestedDicts.NestedDict.Get: the mapping it returns is a value. The aliasing that lets `nd[3][4] = v` write through a returned child is modelled by `Assign` on whole paths.
- Configs.Config.Lookup: the value it returns is a copy. In Python a returned mapping is a view into `data`, so a later change through it would show in the configuration; the model does not capture that aliasing.
- TransformsLists.TransformsList.constructor: the list is stored as a value. Python stores the caller's list object, so later changes through either name would be shared.
- The numeric content of transform matrices is opaque. skimage's checks on the matrix shape when it builds a `SimilarityTransform` are not modelled.
- Writing the JSON file, reading it back through the slicedimage backend, and the JSON arity of each entry are not modelled (transforms_list.py:74-75, 92-96).
- Python dictionaries keep insertion order. The selector maps of the model do not, which affects only the order of keys in the written JSON.
- `TransformType` has a single member, SIMILARITY, so the model's `UnmappedTransformType` error cannot arise.

=== FILE: config.dfy ===
/**
 * Config: a parsed JSON configuration with path lookup. A lookup may fall
 * back to a default, and may remove what it found, pruning every enclosing
 * mapping that the removal leaves empty.
 */
module Configs {
  import opened Wrappers
  import opened ConfigValues

  /** What a Config is built from: an already-decoded mapping, or a string. */
  datatype ConfigInput = Mapping(value: Value) | Text(text: string)

  datatype LoadError = ParseError | FileNotFound

  /**
   * The data a Config starts with. A string beginning with `@` names a file
   * whose contents are parsed; any other string is parsed as JSON itself.
   * The file system and the JSON decoder are parameters of the model.
   */
  function LoadData(input: ConfigInput, files: map<string, string>, parse: string -> Option<Value>): (r: Result<Value, LoadError>)
    ensures input.Mapping? ==> r == Ok(input.value)
    ensures r == Err(FileNotFound) ==> input.Text? && |input.text| > 0 && input.text[0] == '@' && input.text[1..] !in files
  {
    match input
    case Mapping(v) => Ok(v)
    case Text(s) =>
      var source := if |s| > 0 && s[0] == '@' then (if s[1..] in files then Some(files[s[1..]]) else None) else Some(s);
      match source
      case None => Err(FileNotFound)
      case Some(json) =>
        match parse(json)
        case Some(v) => Ok(v)
        case None => Err(ParseError)
  }

  /** A JSON text, the mapping it decodes to, and a file holding the text all give the same data. */
  lemma SameDataFromEverySource(json: string, path: string, files: map<string, string>, parse: string -> Option<Value>, v: Value)
    requires parse(json) == Some(v)
    requires path in files && files[path] == json
    requires json == [] || json[0] != '@'
    ensures LoadData(Text(json), files, parse) == Ok(v)
    ensures LoadData(Mapping(v), files, parse) == Ok(v)
    ensures LoadData(Text("@" + path), files, parse) == Ok(v)
  {
    assert ("@" + path)[1..] == path;
  }

  /** The default, when one is supplied, replaces either kind of failure. */
  function WithDefault(found: Result<Value, PathError>, default: Option<Value>): (r: Result<Value, PathError>)
    ensures found.Ok? ==> r == found
    ensures found.Err? && default.Some? ==> r == Ok(default.value)
    ensures found.Err? && default.None? ==> r == found
  {
    if found.Ok? then found
    else if default.Some? then Ok(default.value)
    else found
  }

  /**
   * Deletes the entry at `path` and then every enclosing mapping that the
   * deletion left empty, innermost first. The top-level mapping itself is
   * never deleted; it may become empty.
   */
  function Prune(m: map<Key, Value>, path: Path): (r: map<Key, Value>)
    requires |path| > 0 && Find(Map(m), path).Ok?
    ensures r.Keys <= m.Keys && m.Keys - r.Keys <= {path[0]}
    decreases |path|
  {
    if |path| == 1 then m - {path[0]}
    else
      assert Find(m[path[0]], path[1..]).Ok?;
      var rest := Prune(m[path[0]].fields, path[1..]);
      if rest == map[] then m - {path[0]} else m[path[0] := Map(rest)]
  }

  /**
   * The data after `lookup(path, ..., remove=True)`: pruned when the path was
   * found, unchanged otherwise. A mapping stays a mapping and gains no key.
   */
  function RemoveAt(v: Value, path: Path): (r: Value)
    ensures path == [] || Find(v, path).Err? ==> r == v
    ensures path != [] && Find(v, path).Ok? ==> Find(r, path) == Err(KeyNotFound)
    ensures v.Map? ==> r.Map? && r.fields.Keys <= v.fields.Keys
  {
    if |path| > 0 && Find(v, path).Ok? then
      PruneRemovesKey(v.fields, path);
      Map(Prune(v.fields, path))
    else v
  }

  /** The removed entry can no longer be found. */
  lemma {:induction false} PruneRemovesKey(m: map<Key, Value>, path: Path)
    requires |path| > 0 && Find(Map(m), path).Ok?
    ensures Find(Map(Prune(m, path)), path) == Err(KeyNotFound)
    decreases |path|
  {
    if |path| > 1 {
      var rest := Prune(m[path[0]].fields, path[1..]);
      if rest != map[] {
        PruneRemovesKey(m[path[0]].fields, path[1..]);
      }
    }
  }

  /** Removal leaves every path unrelated to the removed one (siblings and their contents) as it was. */
  lemma {:induction false} PruneUnrelated(m: map<Key, Value>, path: Path, q: Path)
    requires |path| > 0 && Find(Map(m), path).Ok? && Unrelated(path, q)
    ensures Find(Map(Prune(m, path)), q) == Find(Map(m), q)
    decreases |path|
  {
    assert q != [];
    if q[0] == path[0] {
      assert [path[0]] <= path && [path[0]] <= q;
      assert |path| > 1 && |q| > 1;
      assert path == [path[0]] + path[1..] && q == [q[0]] + q[1..];
      PruneUnrelated(m[path[0]].fields, path[1..], q[1..]);
    }
  }

  /**
   * Pruning is exact: the mapping found at a strict prefix `q` of the removed
   * path becomes what removal from it leaves, and it disappears exactly when
   * that is empty (except the top-level mapping, which is kept).
   */
  lemma {:induction false} PruneAncestor(m: map<Key, Value>, path: Path, q: Path)
    requires |path| > 0 && Find(Map(m), path).Ok? && q < path
    ensures Find(Map(m), q).Ok? && Find(Map(m), q).value.Map?
    ensures Find(Find(Map(m), q).value, path[|q|..]).Ok?
    ensures var rest := Prune(Find(Map(m), q).value.fields, path[|q|..]);
            Find(Map(Prune(m, path)), q) == if q != [] && rest == map[] then Err(KeyNotFound) else Ok(Map(rest))
    decreases |q|
  {
    FindPrefixIsMap(Map(m), q, path);
    FindAppend(Map(m), q, path[|q|..]);
    assert q + path[|q|..] == path;
    if q != [] {
      assert q[0] == path[0];
      var child := m[path[0]];
      assert q[1..] < path[1..];
      assert path[1..][|q| - 1..] == path[|q|..];
      PruneAncestor(child.fields, path[1..], q[1..]);
    }
  }

  /**
   * The walk `lookup` performs, one key per iteration. It stops at the first
   * value that is not a mapping, or at the first missing key.
   */
  method Walk(root: Value, path: Path) returns (r: Result<Value, PathError>)
    ensures r == Find(root, path)
  {
    var sub := root;
    var i := 0;
    while i < |path|
      invariant 0 <= i <= |path|
      invariant Find(root, path) == Find(sub, path[i..])
    {
      assert path[i..][0] == path[i] && path[i..][1..] == path[i + 1..];
      if !sub.Map? {
        return Err(NotIndexable);
      }
      if path[i] !in sub.fields {
        return Err(KeyNotFound);
      }
      sub := sub.fields[path[i]];
      i := i + 1;
    }
    return Ok(sub);
  }

  class Config {
    var data: Value

    constructor (data: Value)
      ensures this.data == data
    {
      this.data := data;
    }

    /** `Config(value)`: decodes `input` and wraps the result. */
    static method Load(input: ConfigInput, files: map<string, string>, parse: string -> Option<Value>)
      returns (r: Result<Config, LoadError>)
      ensures LoadData(input, files, parse).Ok? <==> r.Ok?
      ensures r.Ok? ==> fresh(r.value) && r.value.data == LoadData(input, files, parse).value
      ensures r.Err? ==> r.error == LoadData(input, files, parse).error
    {
      match LoadData(input, files, parse)
      case Ok(v) =>
        var c := new Config(v);
        r := Ok(c);
      case Err(e) =>
        r := Err(e);
    }

    /**
     * `lookup(path, default, remove)`: the value at `path`, or the default
     * when the walk fails and one is supplied. With `remove`, a value that was
     * found is deleted and the emptied ancestors are pruned.
     */
    method Lookup(path: Path, default: Option<Value>, remove: bool) returns (r: Result<Value, PathError>)
      modifies this
      ensures r == WithDefault(Find(old(data), path), default)
      ensures data == if remove then RemoveAt(old(data), path) else old(data)
    {
      var found := Walk(data, path);
      r := WithDefault(found, default);
      if remove {
        data := RemoveAt(data, path);
      }
    }
  }

  /**
   * `test_lookup_dne` and `test_lookup_deep`: a missing key and a value that
   * is not a mapping both fail, and a supplied default replaces either
   * failure.
   */
  lemma LookupFailures()
    ensures var simple := Map(map["a" := Int(1)]);
            && Find(simple, ["foo"]) == Err(KeyNotFound)
            && WithDefault(Find(simple, ["foo"]), Some(Int(1))) == Ok(Int(1))
            && WithDefault(Find(simple, ["foo", "bar"]), Some(Int(2))) == Ok(Int(2))
    ensures var list := List([Int(1), Int(2), Int(3)]);
            var deep := Map(map["a" := Map(map["b" := Map(map["c" := list])])]);
            && Find(deep, ["a", "b", "c"]) == Ok(list)
            && Find(deep, ["a", "b", "c", "d"]) == Err(NotIndexable)
            && WithDefault(Find(deep, ["a", "b", "c", "d"]), Some(Str("x"))) == Ok(Str("x"))
  {
    var list := List([Int(1), Int(2), Int(3)]);
    var deep := Map(map["a" := Map(map["b" := Map(map["c" := list])])]);
    assert ["a", "b", "c", "d"][1..] == ["b", "c", "d"] && ["b", "c", "d"][1..] == ["c", "d"] && ["c", "d"][1..] == ["d"];
    assert Find(deep, ["a", "b", "c", "d"]) == Find(list, ["d"]);
  }

  /** `test_cache_remove_step_wise`: removing `a.b.c`, then `a.b`, then `a`. */
  lemma StepwiseRemoval()
    ensures var d0 := Map(map["a" := Map(map["b" := Map(map["c" := Bool(true), "d" := Bool(true)]), "e" := Int(1)]), "f" := Int(2)]);
            var d1 := RemoveAt(d0, ["a", "b", "c"]);
            var d2 := RemoveAt(d1, ["a", "b"]);
            var d3 := RemoveAt(d2, ["a"]);
            && d1 == Map(map["a" := Map(map["b" := Map(map["d" := Bool(true)]), "e" := Int(1)]), "f" := Int(2)])
            && d2 == Map(map["a" := Map(map["e" := Int(1)]), "f" := Int(2)])
            && d3 == Map(map["f" := Int(2)])
  {
    var b0 := map["c" := Bool(true), "d" := Bool(true)];
    var a0 := map["b" := Map(b0), "e" := Int(1)];
    var d0 := map["a" := Map(a0), "f" := Int(2)];
    assert Find(Map(d0), ["a", "b", "c"]) == Ok(Bool(true));
    assert Prune(b0, ["c"]) == map["d" := Bool(true)];
    assert ["a", "b", "c"][1..] == ["b", "c"] && ["b", "c"][1..] == ["c"];
    assert a0["b"].fields == b0 && "d" in Prune(b0, ["c"]);
    assert Prune(a0, ["b", "c"]) == a0["b" := Map(map["d" := Bool(true)])];
    var a1 := map["b" := Map(map["d" := Bool(true)]), "e" := Int(1)];
    assert a0["b" := Map(map["d" := Bool(true)])] == a1;
    assert Prune(a0, ["b", "c"]) == a1;
    assert d0["a"].fields == a0 && "b" in Prune(a0, ["b", "c"]);
    assert Prune(d0, ["a", "b", "c"]) == d0["a" := Map(a1)];
    var d1 := map["a" := Map(a1), "f" := Int(2)];
    assert Find(Map(d1), ["a", "b"]).Ok?;
    assert ["a", "b"][1..] == ["b"];
    assert Prune(a1, ["b"]) == map["e" := Int(1)];
    assert d1["a"].fields == a1 && "e" in Prune(a1, ["b"]);
    assert Prune(d1, ["a", "b"]) == d1["a" := Map(map["e" := Int(1)])];
    var d2 := map["a" := Map(map["e" := Int(1)]), "f" := Int(2)];
    assert Prune(d2, ["a"]) == map["f" := Int(2)];
  }

  /** `test_cache_remove_all`: removing the only leaf of `a.b.c` empties the whole configuration. */
  lemma RemoveOnlyLeaf()
    ensures RemoveAt(Map(map["a" := Map(map["b" := Map(map["c" := Bool(true)])])]), ["a", "b", "c"]) == Map(map[])
  {
    var b0 := map["c" := Bool(true)];
    var a0 := map["b" := Map(b0)];
    var d0 := map["a" := Map(a0)];
    assert Find(Map(d0), ["a", "b", "c"]) == Ok(Bool(true));
    assert ["a", "b", "c"][1..] == ["b", "c"] && ["b", "c"][1..] == ["c"];
    assert Prune(b0, ["c"]) == map[];
    assert Prune(a0, ["b", "c"]) == map[];
  }
}

=== FILE: config_values.dfy ===
/**
 * The JSON-shaped values a configuration holds, key paths into them, and the
 * traversal that `Config.lookup` performs along such a path.
 */
module ConfigValues {
  import opened Wrappers

  type Key = string

  /** An ordered sequence of keys naming a location inside a configuration. */
  type Path = seq<Key>

  /** A decoded JSON value. Objects are the only values a key can index. */
  datatype Value =
    | Null
    | Bool(b: bool)
    | Int(i: int)
    | Float(r: real)
    | Str(s: string)
    | List(items: seq<Value>)
    | Map(fields: map<Key, Value>)

  /**
   * The two ways a walk along a path fails: a mapping that lacks the next key
   * (Python's KeyError), or a value that is not a mapping was indexed by a key
   * (AttributeError on lookup, TypeError on assignment).
   */
  datatype PathError = KeyNotFound | NotIndexable

  /**
   * Walks `path` from `v`, one key at a time. The empty path names `v`
   * itself; a value that is not a mapping cannot be walked into at all, and a
   * missing key can only be reported by a mapping.
   */
  function Find(v: Value, path: Path): (r: Result<Value, PathError>)
    ensures path == [] ==> r == Ok(v)
    ensures path != [] && !v.Map? ==> r == Err(NotIndexable)
    ensures r == Err(KeyNotFound) ==> path != [] && v.Map?
    ensures r.Ok? && path != [] ==> v.Map? && path[0] in v.fields
    decreases |path|
  {
    if path == [] then Ok(v)
    else if !v.Map? then Err(NotIndexable)
    else if path[0] !in v.fields then Err(KeyNotFound)
    else Find(v.fields[path[0]], path[1..])
  }

  /** Python truthiness of a decoded JSON value. */
  predicate Truthy(v: Value)
  {
    match v
    case Null => false
    case Bool(b) => b
    case Int(i) => i != 0
    case Float(r) => r != 0.0
    case Str(s) => s != ""
    case List(items) => items != []
    case Map(fields) => fields != map[]
  }

  /** Two paths are unrelated when neither is a prefix of the other. */
  predicate Unrelated(p: Path, q: Path)
  {
    !(p <= q) && !(q <= p)
  }

  /** Paths that differ at a position both of them have are unrelated. */
  lemma DivergentUnrelated(p: Path, q: Path, k: nat)
    requires k < |p| && k < |q| && p[k] != q[k]
    ensures Unrelated(p, q)
  {
  }

  /**
   * Walking `p + q` is walking `p` and then walking `q` from where `p` ended;
   * a failure along `p` is the failure of the whole walk.
   */
  lemma {:induction false} FindAppend(v: Value, p: Path, q: Path)
    ensures Find(v, p + q) == (if Find(v, p).Ok? then Find(Find(v, p).value, q) else Find(v, p))
    decreases |p|
  {
    if p == [] {
      assert p + q == q;
    } else {
      assert (p + q)[0] == p[0];
      assert (p + q)[1..] == p[1..] + q;
      if v.Map? && p[0] in v.fields {
        FindAppend(v.fields[p[0]], p[1..], q);
      }
    }
  }

  /**
   * A walk that succeeds along `q` passes through a mapping at every strict
   * prefix of `q`.
   */
  lemma FindPrefixIsMap(v: Value, p: Path, q: Path)
    requires p < q && Find(v, q).Ok?
    ensures Find(v, p).Ok? && Find(v, p).value.Map?
  {
    FindAppend(v, p, q[|p|..]);
    assert p + q[|p|..] == q;
  }
}

=== FILE: nested_dict.dfy ===
/**
 * NestedDict: an auto-vivifying nested mapping. Indexing a missing key
 * creates an empty mapping there, so `nd[a][b][c] = v` works without creating
 * `a` and `b` first; `update` merges another mapping in, recursing where both
 * sides hold a mapping at the same key.
 */
module NestedDicts {
  import opened Wrappers
  import opened ConfigValues

  /**
   * The assignment `d[p0][p1]...[pn] = v`. Every missing key on the way is
   * filled with a fresh empty mapping; an existing value on the way that is
   * not a mapping cannot be indexed, and the assignment fails without
   * changing anything.
   */
  function SetIn(m: map<Key, Value>, path: Path, v: Value): (r: Result<map<Key, Value>, PathError>)
    requires |path| > 0
    ensures r.Err? ==> r.error == NotIndexable
    ensures r.Ok? ==> r.value.Keys == m.Keys + {path[0]}
    decreases |path|
  {
    if |path| == 1 then Ok(m[path[0] := v])
    else
      var child := if path[0] in m then m[path[0]] else Map(map[]);
      if !child.Map? then Err(NotIndexable)
      else
        match SetIn(child.fields, path[1..], v)
        case Ok(c) => Ok(m[path[0] := Map(c)])
        case Err(e) => Err(e)
  }

  /** Some strict, non-empty prefix of `path` already holds a value that is not a mapping. */
  predicate Blocked(m: map<Key, Value>, path: Path)
  {
    exists k :: 0 < k < |path| && Find(Map(m), path[..k]).Ok? && !Find(Map(m), path[..k]).value.Map?
  }

  /** An assignment succeeds exactly when nothing on its way is a non-mapping value. */
  lemma {:induction false} SetInSucceedsIff(m: map<Key, Value>, path: Path, v: Value)
    requires |path| > 0
    ensures SetIn(m, path, v).Ok? <==> !Blocked(m, path)
    decreases |path|
  {
    if |path| > 1 {
      var p0, rest := path[0], path[1..];
      if p0 in m && !m[p0].Map? {
        assert path[..1] == [p0];
        assert Find(Map(m), path[..1]) == Ok(m[p0]);
      } else {
        var child := if p0 in m then m[p0] else Map(map[]);
        SetInSucceedsIff(child.fields, rest, v);
        forall k | 0 < k < |path|
          ensures Find(Map(m), path[..k]) ==
            (if k == 1 then (if p0 in m then Ok(child) else Err(KeyNotFound))
             else if p0 in m then Find(child, rest[..k - 1]) else Err(KeyNotFound))
        {
          assert path[..k][0] == p0;
          assert path[..k][1..] == rest[..k - 1];
        }
        if p0 !in m {
          forall k | 0 < k < |rest| ensures Find(child, rest[..k]) == Err(KeyNotFound) { }
        }
        if Blocked(child.fields, rest) {
          var k :| 0 < k < |rest| && Find(child, rest[..k]).Ok? && !Find(child, rest[..k]).value.Map?;
          assert Find(Map(m), path[..k + 1]) == Find(child, rest[..k]);
        }
      }
    }
  }

  /** Reading back the path just assigned yields the assigned value. */
  lemma {:induction false} SetThenFind(m: map<Key, Value>, path: Path, v: Value)
    requires |path| > 0 && SetIn(m, path, v).Ok?
    ensures Find(Map(SetIn(m, path, v).value), path) == Ok(v)
    decreases |path|
  {
    if |path| > 1 {
      var child := if path[0] in m then m[path[0]] else Map(map[]);
      SetThenFind(child.fields, path[1..], v);
    }
  }

  /** An assignment leaves every path unrelated to the assigned one as it was. */
  lemma {:induction false} SetFrame(m: map<Key, Value>, path: Path, v: Value, q: Path)
    requires |path| > 0 && SetIn(m, path, v).Ok? && Unrelated(path, q)
    ensures Find(Map(SetIn(m, path, v).value), q) == Find(Map(m), q)
    decreases |path|
  {
    assert q != [];
    if q[0] == path[0] {
      assert [path[0]] <= path && [path[0]] <= q;
      assert |path| > 1 && |q| > 1;
      var child := if path[0] in m then m[path[0]] else Map(map[]);
      assert path == [path[0]] + path[1..] && q == [q[0]] + q[1..];
      SetFrame(child.fields, path[1..], v, q[1..]);
    }
  }

  /** Auto-vivification: a path whose first key is absent can always be assigned. */
  lemma {:induction false} AssignUnderFreshKey(m: map<Key, Value>, path: Path, v: Value)
    requires |path| > 0 && path[0] !in m
    ensures SetIn(m, path, v).Ok?
    ensures Find(Map(SetIn(m, path, v).value), path) == Ok(v)
  {
    SetInSucceedsIff(m, path, v);
    forall k | 0 < k < |path| ensures Find(Map(m), path[..k]) == Err(KeyNotFound) {
      assert path[..k][0] == path[0];
    }
    SetThenFind(m, path, v);
  }

  /**
   * `update`: every key of `incoming` is written into `m`; where both hold a
   * mapping at the same key the two are merged recursively instead.
   */
  function Merge(m: map<Key, Value>, incoming: map<Key, Value>): (r: map<Key, Value>)
    ensures r.Keys == m.Keys + incoming.Keys
    ensures forall k :: k in m && k !in incoming ==> r[k] == m[k]
    decreases Map(incoming)
  {
    map k | k in m.Keys + incoming.Keys ::
      if k in incoming then
        (if k in m && m[k].Map? && incoming[k].Map? then Map(Merge(m[k].fields, incoming[k].fields))
         else incoming[k])
      else m[k]
  }

  /** Updating twice with the same mapping is the same as updating once. */
  lemma {:induction false} MergeIdempotent(m: map<Key, Value>, incoming: map<Key, Value>)
    ensures Merge(Merge(m, incoming), incoming) == Merge(m, incoming)
    decreases Map(incoming)
  {
    var once := Merge(m, incoming);
    var twice := Merge(once, incoming);
    forall k | k in twice.Keys ensures twice[k] == once[k] {
      if k in incoming && incoming[k].Map? {
        if k in m && m[k].Map? {
          MergeIdempotent(m[k].fields, incoming[k].fields);
        } else {
          MergeSelf(incoming[k].fields);
        }
      }
    }
  }

  /** Updating a mapping with itself leaves it unchanged. */
  lemma {:induction false} MergeSelf(m: map<Key, Value>)
    ensures Merge(m, m) == m
    decreases Map(m)
  {
    forall k | k in m ensures Merge(m, m)[k] == m[k] {
      if m[k].Map? {
        MergeSelf(m[k].fields);
      }
    }
  }

  /** Every non-mapping leaf of the incoming mapping can be read back after `update`. */
  lemma {:induction false} MergeShowsIncoming(m: map<Key, Value>, incoming: map<Key, Value>, path: Path)
    requires Find(Map(incoming), path).Ok? && !Find(Map(incoming), path).value.Map?
    ensures Find(Map(Merge(m, incoming)), path) == Find(Map(incoming), path)
    decreases |path|
  {
    var k := path[0];
    if |path| > 1 && k in m && m[k].Map? && incoming[k].Map? {
      MergeShowsIncoming(m[k].fields, incoming[k].fields, path[1..]);
    }
  }

  /**
   * A leaf of the existing mapping survives `update` when the incoming mapping
   * has no entry along its path (the walk in `incoming` stops at a missing key
   * below mappings only).
   */
  lemma {:induction false} MergeKeepsUnshadowed(m: map<Key, Value>, incoming: map<Key, Value>, path: Path)
    requires Find(Map(m), path).Ok? && Find(Map(incoming), path) == Err(KeyNotFound)
    ensures Find(Map(Merge(m, incoming)), path) == Find(Map(m), path)
    decreases |path|
  {
    var k := path[0];
    if k in incoming {
      MergeKeepsUnshadowed(m[k].fields, incoming[k].fields, path[1..]);
    }
  }

  /**
   * `update` invents nothing: whatever can be found after it could be found
   * in the existing mapping or in the incoming one.
   */
  lemma {:induction false} MergeInventsNothing(m: map<Key, Value>, incoming: map<Key, Value>, path: Path)
    requires Find(Map(Merge(m, incoming)), path).Ok?
    ensures Find(Map(incoming), path).Ok? || Find(Map(m), path).Ok?
    decreases |path|
  {
    if path != [] {
      var k := path[0];
      if k in incoming && k in m && m[k].Map? && incoming[k].Map? && |path| > 1 {
        MergeInventsNothing(m[k].fields, incoming[k].fields, path[1..]);
      }
    }
  }

  /** The auto-vivifying mapping, updated in place. */
  class NestedDict {
    var root: map<Key, Value>

    constructor ()
      ensures root == map[]
    {
      root := map[];
    }

    /** `d[key]`: a missing key is created holding an empty mapping, then returned. */
    method Get(key: Key) returns (child: Value)
      modifies this
      ensures key in old(root) ==> root == old(root) && child == old(root)[key]
      ensures key !in old(root) ==> root == old(root)[key := Map(map[])] && child == Map(map[])
    {
      if key !in root {
        root := root[key := Map(map[])];
      }
      child := root[key];
    }

    /** `d[p0]...[pn] = v`, creating missing intermediate mappings. */
    method Assign(path: Path, v: Value) returns (r: Result<(), PathError>)
      requires |path| > 0
      modifies this
      ensures r.Ok? <==> !Blocked(old(root), path)
      ensures r.Ok? <==> SetIn(old(root), path, v).Ok?
      ensures r.Ok? ==> root == SetIn(old(root), path, v).value && Find(Map(root), path) == Ok(v)
      ensures r.Err? ==> r.error == NotIndexable && root == old(root)
    {
      SetInSucceedsIff(root, path, v);
      match SetIn(root, path, v)
      case Ok(m) =>
        SetThenFind(root, path, v);
        root := m;
        r := Ok(());
      case Err(e) =>
        r := Err(e);
    }

    /** `d.update(incoming)`, merging nested mappings; `incoming` is not changed. */
    method Update(incoming: map<Key, Value>)
      modifies this
      ensures root == Merge(old(root), incoming)
    {
      root := Merge(root, incoming);
    }
  }

  /**
   * The sequence of operations of `test_nested_dict`: a four-level assignment
   * into an empty dictionary, an update with a plain mapping `{1: {2: None}}`,
   * then assignments to an existing and to a new key under that mapping.
   */
  lemma NestedDictScenario()
    ensures SetIn(map[], ["3", "4", "5", "6"], Int(7)).Ok?
    ensures var d1 := SetIn(map[], ["3", "4", "5", "6"], Int(7)).value;
            var d2 := Merge(d1, map["1" := Map(map["2" := Null])]);
            && SetIn(d2, ["1", "2"], Int(9)).Ok?
            && var d3 := SetIn(d2, ["1", "2"], Int(9)).value;
               && SetIn(d3, ["1", "8"], Int(10)).Ok?
               && var d4 := SetIn(d3, ["1", "8"], Int(10)).value;
                  && Find(Map(d4), ["1", "2"]) == Ok(Int(9))
                  && Find(Map(d4), ["1", "8"]) == Ok(Int(10))
                  && Find(Map(d4), ["3", "4", "5", "6"]) == Ok(Int(7))
  {
    var p := ["3", "4", "5", "6"];
    AssignUnderFreshKey(map[], p, Int(7));
    var d1 := SetIn(map[], p, Int(7)).value;
    var d2 := Merge(d1, map["1" := Map(map["2" := Null])]);
    assert d2["1"] == Map(map["2" := Null]);
    var d3 := SetIn(d2, ["1", "2"], Int(9)).value;
    SetThenFind(d2, ["1", "2"], Int(9));
    var d4 := SetIn(d3, ["1", "8"], Int(10)).value;
    SetThenFind(d3, ["1", "8"], Int(10));
    SetFrame(d3, ["1", "8"], Int(10), ["1", "2"]);
    MergeKeepsUnshadowed(d1, map["1" := Map(map["2" := Null])], p);
    SetFrame(d2, ["1", "2"], Int(9), p);
    SetFrame(d3, ["1", "8"], Int(10), p);
  }
}

=== FILE: starfish_config.dfy ===
/**
 * StarfishConfig: the file-based configuration named by STARFISH_CONFIG with
 * environment variables laid over it. Each recognised option has a
 * `STARFISH_`-prefixed variable and, for the options inherited from
 * slicedimage, also the older unprefixed name; the prefixed one wins. The
 * known sections are then taken out of the configuration, and warnings are
 * collected for unknown variables, for options set under both names and for
 * configuration that nothing consumed.
 */
module StarfishConfigs {
  import opened Wrappers
  import opened ConfigValues
  import opened NestedDicts
  import opened Configs

  /** A snapshot of the process environment, in its iteration order. */
  type Environment = seq<(string, string)>

  predicate UniqueNames(env: Environment)
  {
    forall i, j :: 0 <= i < j < |env| ==> env[i].0 != env[j].0
  }

  /** `os.environ.get(name)`. */
  function Getenv(env: Environment, name: string): (r: Option<string>)
    ensures r.Some? <==> exists i :: 0 <= i < |env| && env[i].0 == name
    ensures r.Some? ==> exists i :: 0 <= i < |env| && env[i] == (name, r.value)
    decreases |env|
  {
    if env == [] then None
    else if env[0].0 == name then Some(env[0].1)
    else
      var r := Getenv(env[1..], name);
      assert forall i :: 0 < i < |env| ==> env[i] == env[1..][i - 1];
      r
  }

  const ConfigVariable := "STARFISH_CONFIG"
  const Prefix := "STARFISH_"

  /** How the text of a variable becomes a configuration value. */
  datatype Parser = AsInt | AsFlag | AsText

  /** A recognised option: where it lives, its variable, its older unprefixed variable if any. */
  datatype EnvOption = EnvOption(path: Path, variable: string, legacy: Option<string>, parser: Parser)

  const SizeLimit := EnvOption(["slicedimage", "caching", "size_limit"], "STARFISH_SLICEDIMAGE_CACHING_SIZE_LIMIT",
                               Some("SLICEDIMAGE_CACHING_SIZE_LIMIT"), AsInt)
  const Directory := EnvOption(["slicedimage", "caching", "directory"], "STARFISH_SLICEDIMAGE_CACHING_DIRECTORY",
                               Some("SLICEDIMAGE_CACHING_DIRECTORY"), AsText)
  const Strict := EnvOption(["validation", "strict"], "STARFISH_VALIDATION_STRICT", None, AsFlag)

  const Options: seq<EnvOption> := [SizeLimit, Directory, Strict]

  const SlicedImagePath: Path := ["slicedimage"]
  const StrictPath: Path := ["validation", "strict"]

  const KnownVariables: set<string> := {ConfigVariable, SizeLimit.variable, Directory.variable, Strict.variable}

  /** The options live at pairwise unrelated paths, so setting one never disturbs another. */
  lemma OptionPathsUnrelated()
    ensures forall j, k :: 0 <= j < k < |Options| ==> Unrelated(Options[j].path, Options[k].path)
    ensures forall k :: 0 <= k < |Options| ==> |Options[k].path| > 0 && Options[k].path[0] in {"slicedimage", "validation"}
    ensures forall k :: 0 <= k < |Options| ==> (Unrelated(SlicedImagePath, Options[k].path) <==> Options[k] == Strict)
  {
    DivergentUnrelated(SizeLimit.path, Directory.path, 2);
    DivergentUnrelated(SizeLimit.path, Strict.path, 0);
    DivergentUnrelated(Directory.path, Strict.path, 0);
    DivergentUnrelated(SlicedImagePath, Strict.path, 0);
    assert SlicedImagePath <= SizeLimit.path && SlicedImagePath <= Directory.path;
  }

  // ---- Parsing variable values -------------------------------------------

  predicate IsDigit(c: char)
  {
    '0' as int <= c as int <= '9' as int
  }

  predicate AllDigits(s: string)
  {
    |s| > 0 && forall i :: 0 <= i < |s| ==> IsDigit(s[i])
  }

  /** The number a run of decimal digits denotes. */
  function DigitsValue(s: string): nat
    requires forall i :: 0 <= i < |s| ==> IsDigit(s[i])
    decreases |s|
  {
    if s == [] then 0
    else
      assert IsDigit(s[|s| - 1]);
      DigitsValue(s[..|s| - 1]) * 10 + (s[|s| - 1] as int - '0' as int)
  }

  /** `int(text)`: an optional sign followed by decimal digits; anything else is rejected. */
  function ParseInt(s: string): Option<int>
  {
    if |s| > 0 && (s[0] == '-' || s[0] == '+') && AllDigits(s[1..]) then
      var magnitude: int := DigitsValue(s[1..]);
      Some(if s[0] == '-' then -magnitude else magnitude)
    else if AllDigits(s) then Some(DigitsValue(s))
    else None
  }

  function DigitChar(d: nat): (c: char)
    requires d < 10
    ensures IsDigit(c) && c as int - '0' as int == d
  {
    ('0' as int + d) as char
  }

  /** `str(n)` for a natural number: its shortest decimal spelling. */
  function Decimal(n: nat): (s: string)
    ensures AllDigits(s)
    ensures |s| > 1 ==> s[0] != '0'
    decreases n
  {
    if n < 10 then [DigitChar(n)] else Decimal(n / 10) + [DigitChar(n % 10)]
  }

  /** `str(i)` for any integer. */
  function IntText(i: int): string
  {
    if i < 0 then "-" + Decimal(-i) else Decimal(i)
  }

  lemma {:induction false} DecimalValue(n: nat)
    ensures DigitsValue(Decimal(n)) == n
    decreases n
  {
    if n >= 10 {
      DecimalValue(n / 10);
      var s := Decimal(n);
      assert s[..|s| - 1] == Decimal(n / 10);
    }
  }

  /** Parsing the decimal spelling of an integer gives that integer back. */
  lemma ParseIntText(i: int)
    ensures ParseInt(IntText(i)) == Some(i)
  {
    if i < 0 {
      ParseNegative(-i);
    } else {
      ParseNatural(i);
    }
  }

  lemma ParseNatural(n: nat)
    ensures ParseInt(Decimal(n)) == Some(n)
  {
    var s := Decimal(n);
    DecimalValue(n);
    assert IsDigit(s[0]);
    assert s[0] != '-' && s[0] != '+';
  }

  lemma ParseNegative(n: nat)
    requires n > 0
    ensures ParseInt("-" + Decimal(n)) == Some(-(n as int))
  {
    var digits := Decimal(n);
    DecimalValue(n);
    var s := "-" + digits;
    assert s[0] == '-' && s[1..] == digits;
    assert AllDigits(s[1..]);
  }

  function LowerAscii(c: char): char
  {
    if 'A' <= c <= 'Z' then (c as int + 32) as char else c
  }

  /** `s` with its ASCII capitals made lower case. */
  function LowerText(s: string): (t: string)
    ensures |t| == |s| && forall i :: 0 <= i < |s| ==> t[i] == LowerAscii(s[i])
  {
    seq(|s|, i requires 0 <= i < |s| => LowerAscii(s[i]))
  }

  /** A flag variable is on when it spells `true` in any letter case; every other text is off. */
  function ParseFlag(s: string): (on: bool)
    ensures on <==> LowerText(s) == "true"
  {
    var on := |s| == 4 && LowerAscii(s[0]) == 't' && LowerAscii(s[1]) == 'r' && LowerAscii(s[2]) == 'u' && LowerAscii(s[3]) == 'e';
    assert on ==> LowerText(s) == "true" by {
      if on {
        var t := LowerText(s);
        assert t[0] == 't' && t[1] == 'r' && t[2] == 'u' && t[3] == 'e';
      }
    }
    assert LowerText(s) == "true" ==> on by {
      if LowerText(s) == "true" {
        var t := LowerText(s);
        assert t[0] == 't' && t[1] == 'r' && t[2] == 'u' && t[3] == 'e';
      }
    }
    on
  }

  /** The flag texts of the tests: `true` turns a flag on, `false` leaves it off, and so does any other text. */
  lemma FlagTexts()
    ensures ParseFlag("true") && ParseFlag("True") && ParseFlag("TRUE")
    ensures !ParseFlag("false") && !ParseFlag("") && !ParseFlag("1")
  {
    assert LowerText("True") == "true" && LowerText("TRUE") == "true";
    assert LowerText("false")[0] != 't';
  }

  function ParseValue(parser: Parser, raw: string): (r: Option<Value>)
    ensures parser.AsFlag? ==> r == Some(Bool(ParseFlag(raw)))
    ensures parser.AsText? ==> r == Some(Str(raw))
    ensures parser.AsInt? ==> (r.Some? <==> ParseInt(raw).Some?)
    ensures parser.AsInt? && r.Some? ==> r.value == Int(ParseInt(raw).value)
  {
    match parser
    case AsInt => (match ParseInt(raw) case Some(i) => Some(Int(i)) case None => None)
    case AsFlag => Some(Bool(ParseFlag(raw)))
    case AsText => Some(Str(raw))
  }

  // ---- Unknown variables -------------------------------------------------

  predicate IsUnknownVariable(name: string)
  {
    Prefix <= name && name !in KnownVariables
  }

  /** The `STARFISH_` variables that name no option, in environment order. */
  function UnknownVariables(env: Environment): (r: seq<string>)
    ensures |r| <= |env|
    ensures forall k :: 0 <= k < |r| ==> IsUnknownVariable(r[k])
    decreases |env|
  {
    if env == [] then []
    else
      var last := env[|env| - 1].0;
      UnknownVariables(env[..|env| - 1]) + (if IsUnknownVariable(last) then [last] else [])
  }

  /** A name is reported exactly when it is in the environment and is an unknown `STARFISH_` variable. */
  lemma {:induction false} UnknownVariablesExact(env: Environment, name: string)
    ensures name in UnknownVariables(env) <==> IsUnknownVariable(name) && exists i :: 0 <= i < |env| && env[i].0 == name
    decreases |env|
  {
    if env != [] {
      var init := env[..|env| - 1];
      UnknownVariablesExact(init, name);
      assert forall i :: 0 <= i < |init| ==> init[i] == env[i];
    }
  }

  /** An environment with no unknown `STARFISH_` variable gives no warning about one. */
  lemma {:induction false} NoneUnknown(env: Environment)
    requires forall i :: 0 <= i < |env| ==> !IsUnknownVariable(env[i].0)
    ensures UnknownVariables(env) == []
    decreases |env|
  {
    if env != [] {
      var init := env[..|env| - 1];
      assert forall i :: 0 <= i < |init| ==> init[i] == env[i];
      NoneUnknown(init);
    }
  }

  /** With distinct variable names, each unknown variable is reported once. */
  lemma {:induction false} UnknownVariablesOnce(env: Environment)
    requires UniqueNames(env)
    ensures forall i, j :: 0 <= i < j < |UnknownVariables(env)| ==> UnknownVariables(env)[i] != UnknownVariables(env)[j]
    decreases |env|
  {
    if env != [] {
      var init := env[..|env| - 1];
      var last := env[|env| - 1].0;
      assert UniqueNames(init);
      UnknownVariablesOnce(init);
      UnknownVariablesExact(init, last);
      assert forall i :: 0 <= i < |init| ==> init[i].0 != last;
    }
  }

  /** The scan over the environment that reports unknown variables. */
  method ScanEnvironment(env: Environment) returns (unknown: seq<string>)
    ensures unknown == UnknownVariables(env)
  {
    unknown := [];
    var i := 0;
    while i < |env|
      invariant 0 <= i <= |env|
      invariant unknown == UnknownVariables(env[..i])
    {
      assert env[..i + 1][..i] == env[..i];
      if IsUnknownVariable(env[i].0) {
        unknown := unknown + [env[i].0];
      }
      i := i + 1;
    }
    assert env[..|env|] == env;
  }

  // ---- The overlay -------------------------------------------------------

  datatype Warning = UnknownVariable(name: string) | DuplicateVariable(name: string) | UnknownConfig(leftover: Value)

  datatype BuildError = LoadFailed(cause: LoadError) | InvalidValue(variable: string) | NotAMapping(variable: string)

  /** The variable that sets `opt` and its text: the prefixed variable wins over the older name. */
  function Override(env: Environment, opt: EnvOption): (r: Option<(string, string)>)
    ensures Getenv(env, opt.variable).Some? ==> r == Some((opt.variable, Getenv(env, opt.variable).value))
    ensures Getenv(env, opt.variable).None? && opt.legacy.Some? && Getenv(env, opt.legacy.value).Some? ==>
              r == Some((opt.legacy.value, Getenv(env, opt.legacy.value).value))
    ensures r.None? <==> Getenv(env, opt.variable).None? && (opt.legacy.None? || Getenv(env, opt.legacy.value).None?)
  {
    match Getenv(env, opt.variable)
    case Some(raw) => Some((opt.variable, raw))
    case None =>
      if opt.legacy.Some? && Getenv(env, opt.legacy.value).Some? then Some((opt.legacy.value, Getenv(env, opt.legacy.value).value))
      else None
  }

  /** Both the prefixed and the older variable of `opt` are set. */
  predicate Duplicated(env: Environment, opt: EnvOption)
  {
    opt.legacy.Some? && Getenv(env, opt.variable).Some? && Getenv(env, opt.legacy.value).Some?
  }

  /**
   * One warning per option, from `Options[i]` on, set under both of its
   * names; each warning names the older variable.
   */
  function DuplicateWarnings(env: Environment, i: nat): (r: seq<Warning>)
    requires i <= |Options|
    ensures |r| <= |Options| - i
    ensures forall w :: w in r ==> w.DuplicateVariable?
    decreases |Options| - i
  {
    if i == |Options| then []
    else (if Duplicated(env, Options[i]) then [DuplicateVariable(Options[i].legacy.value)] else []) + DuplicateWarnings(env, i + 1)
  }

  /**
   * A name is warned about as a duplicate exactly when it is the older name
   * of an option, from `Options[i]` on, that is set under both names.
   */
  lemma {:induction false} DuplicateWarningsExact(env: Environment, i: nat, n: string)
    requires i <= |Options|
    ensures DuplicateVariable(n) in DuplicateWarnings(env, i) <==>
              exists k :: i <= k < |Options| && Options[k].legacy == Some(n) && Duplicated(env, Options[k])
    decreases |Options| - i
  {
    if i < |Options| {
      DuplicateWarningsExact(env, i + 1, n);
    }
  }

  /** No option is warned about twice. */
  lemma DuplicateWarningsOnce(env: Environment)
    ensures var ws := DuplicateWarnings(env, 0);
            forall a, b :: 0 <= a < b < |ws| ==> ws[a] != ws[b]
  {
    assert DuplicateWarnings(env, 3) == [];
    assert Options[2].legacy.None?;
    assert DuplicateWarnings(env, 2) == [];
    var ws1 := DuplicateWarnings(env, 1);
    assert forall k :: 0 <= k < |ws1| ==> ws1[k] == DuplicateVariable(Directory.legacy.value);
    assert SizeLimit.legacy.value != Directory.legacy.value by {
      assert SizeLimit.legacy.value[20] != Directory.legacy.value[20];
    }
  }

  /**
   * Sets `opt` from the environment, if the environment sets it. A failure
   * names the variable that was read: its text does not parse, or the
   * configuration has a non-mapping value on the option's way.
   */
  function ApplyOption(data: Value, env: Environment, opt: EnvOption): (r: Result<Value, BuildError>)
    requires |opt.path| > 0
    ensures Override(env, opt).None? ==> r == Ok(data)
    ensures r.Err? ==> Override(env, opt).Some? &&
                       (var name := Override(env, opt).value.0;
                        r.error == InvalidValue(name) || r.error == NotAMapping(name))
    ensures r.Ok? && Override(env, opt).Some? ==>
              data.Map? && r.value.Map? && r.value.fields.Keys == data.fields.Keys + {opt.path[0]}
  {
    match Override(env, opt)
    case None => Ok(data)
    case Some((name, raw)) =>
      match ParseValue(opt.parser, raw)
      case None => Err(InvalidValue(name))
      case Some(v) =>
        if !data.Map? then Err(NotAMapping(name))
        else
          match SetIn(data.fields, opt.path, v)
          case Ok(m) => Ok(Map(m))
          case Err(_) => Err(NotAMapping(name))
  }

  /**
   * Which failure an option gives, in both directions: InvalidValue exactly
   * when its text does not parse, NotAMapping exactly when the text parses
   * but a value on the option's way is not a mapping. On success the option
   * reads back as the environment expects.
   */
  lemma ApplyOptionResult(data: Value, env: Environment, opt: EnvOption)
    requires |opt.path| > 0
    ensures var r := ApplyOption(data, env, opt);
            r.Err? && r.error.InvalidValue? <==>
              Override(env, opt).Some? && ParseValue(opt.parser, Override(env, opt).value.1).None?
    ensures var r := ApplyOption(data, env, opt);
            r.Err? && r.error.NotAMapping? <==>
              && Override(env, opt).Some? && ParseValue(opt.parser, Override(env, opt).value.1).Some?
              && (!data.Map? || Blocked(data.fields, opt.path))
    ensures var r := ApplyOption(data, env, opt);
            r.Ok? ==> Find(r.value, opt.path) == Expected(data, env, opt)
  {
    if Override(env, opt).Some? && ParseValue(opt.parser, Override(env, opt).value.1).Some? && data.Map? {
      var v := ParseValue(opt.parser, Override(env, opt).value.1).value;
      SetInSucceedsIff(data.fields, opt.path, v);
      if SetIn(data.fields, opt.path, v).Ok? {
        SetThenFind(data.fields, opt.path, v);
      }
    }
  }

  /**
   * Applies `Options[i..]` in order, stopping at the first failure. Nothing
   * changes when no option is set; a failure names a variable that is set; a
   * mapping keeps its keys and gains at most the two top-level sections.
   */
  function Overlay(data: Value, env: Environment, i: nat): (r: Result<Value, BuildError>)
    requires i <= |Options|
    ensures (forall k :: i <= k < |Options| ==> Override(env, Options[k]).None?) ==> r == Ok(data)
    ensures r.Ok? && !data.Map? ==> r.value == data
    ensures r.Ok? && data.Map? ==>
              r.value.Map? && data.fields.Keys <= r.value.fields.Keys <= data.fields.Keys + {"slicedimage", "validation"}
    decreases |Options| - i
  {
    if i == |Options| then Ok(data)
    else
      OptionPathsUnrelated();
      match ApplyOption(data, env, Options[i])
      case Ok(d) => Overlay(d, env, i + 1)
      case Err(e) => Err(e)
  }

  /** What the environment expects to find at an option's path after the overlay. */
  function Expected(base: Value, env: Environment, opt: EnvOption): Result<Value, PathError>
  {
    match Override(env, opt)
    case Some((_, raw)) => if ParseValue(opt.parser, raw).Some? then Ok(ParseValue(opt.parser, raw).value) else Err(KeyNotFound)
    case None => Find(base, opt.path)
  }

  /** An overlay that fails names a variable that is set and could not be applied. */
  lemma {:induction false} OverlayFailure(data: Value, env: Environment, i: nat)
    requires i <= |Options| && Overlay(data, env, i).Err?
    ensures var e := Overlay(data, env, i).error;
            exists k :: i <= k < |Options| && Override(env, Options[k]).Some? &&
                        (e == InvalidValue(Override(env, Options[k]).value.0) || e == NotAMapping(Override(env, Options[k]).value.0))
    decreases |Options| - i
  {
    OptionPathsUnrelated();
    if ApplyOption(data, env, Options[i]).Ok? {
      OverlayFailure(ApplyOption(data, env, Options[i]).value, env, i + 1);
    }
  }

  /** The overlay leaves alone every path unrelated to the remaining options. */
  lemma {:induction false} OverlayFrame(data: Value, env: Environment, i: nat, q: Path)
    requires i <= |Options| && Overlay(data, env, i).Ok?
    requires forall k :: i <= k < |Options| ==> Unrelated(Options[k].path, q)
    ensures Find(Overlay(data, env, i).value, q) == Find(data, q)
    decreases |Options| - i
  {
    if i < |Options| {
      OptionPathsUnrelated();
      var d := ApplyOption(data, env, Options[i]).value;
      OverlayFrame(d, env, i + 1, q);
      if Override(env, Options[i]).Some? {
        SetFrame(data.fields, Options[i].path, ParseValue(Options[i].parser, Override(env, Options[i]).value.1).value, q);
      }
    }
  }

  /** After the overlay every option holds its environment value, or else what the base configuration had. */
  lemma {:induction false} OverlayFind(data: Value, env: Environment, i: nat, j: nat)
    requires i <= j < |Options| && Overlay(data, env, i).Ok?
    ensures Override(env, Options[j]).Some? ==> ParseValue(Options[j].parser, Override(env, Options[j]).value.1).Some?
    ensures Find(Overlay(data, env, i).value, Options[j].path) == Expected(data, env, Options[j])
    decreases |Options| - i
  {
    OptionPathsUnrelated();
    var opt := Options[i];
    var d := ApplyOption(data, env, opt).value;
    var applied := Override(env, opt).Some?;
    if j == i {
      OverlayFrame(d, env, i + 1, opt.path);
      if applied {
        SetThenFind(data.fields, opt.path, ParseValue(opt.parser, Override(env, opt).value.1).value);
      }
    } else {
      OverlayFind(d, env, i + 1, j);
      if applied {
        SetFrame(data.fields, opt.path, ParseValue(opt.parser, Override(env, opt).value.1).value, Options[j].path);
      }
    }
  }

  // ---- Construction ------------------------------------------------------

  /** The settings a StarfishConfig exposes, and what remains of its configuration. */
  datatype StarfishConfig = StarfishConfig(data: Value, strict: bool, slicedimage: Value, warnings: seq<Warning>)

  /**
   * The configuration named by STARFISH_CONFIG; an empty one when the
   * variable is unset. It can only fail when the variable is set, and it
   * reports a missing file only for an `@` name absent from the file system.
   */
  function BaseConfig(env: Environment, files: map<string, string>, parse: string -> Option<Value>): (r: Result<Value, LoadError>)
    ensures Getenv(env, ConfigVariable).None? ==> r == Ok(Map(map[]))
    ensures r.Err? ==> Getenv(env, ConfigVariable).Some?
    ensures r == Err(FileNotFound) ==>
              var s := Getenv(env, ConfigVariable).value;
              |s| > 0 && s[0] == '@' && s[1..] !in files
  {
    match Getenv(env, ConfigVariable)
    case None => Ok(Map(map[]))
    case Some(s) => LoadData(Text(s), files, parse)
  }

  function UnknownVariableWarnings(names: seq<string>): (ws: seq<Warning>)
    ensures |ws| == |names| && forall i :: 0 <= i < |names| ==> ws[i] == UnknownVariable(names[i])
  {
    seq(|names|, i requires 0 <= i < |names| => UnknownVariable(names[i]))
  }

  /**
   * `StarfishConfig()`, as a function of the environment, the file system and
   * the JSON decoder. A failure is a failed load or a set variable that could
   * not be applied; the warnings are those about unknown variables, then
   * those about duplicated ones, then at most one about leftover
   * configuration.
   */
  function Resolve(env: Environment, files: map<string, string>, parse: string -> Option<Value>): (r: Result<StarfishConfig, BuildError>)
    ensures BaseConfig(env, files, parse).Err? ==> r == Err(LoadFailed(BaseConfig(env, files, parse).error))
    ensures r.Err? && !r.error.LoadFailed? ==> BaseConfig(env, files, parse).Ok? && Overlay(BaseConfig(env, files, parse).value, env, 0) == Err(r.error)
    ensures r.Ok? ==>
              var pre := UnknownVariableWarnings(UnknownVariables(env)) + DuplicateWarnings(env, 0);
              pre <= r.value.warnings && |r.value.warnings| <= |pre| + 1
  {
    match BaseConfig(env, files, parse)
    case Err(e) => Err(LoadFailed(e))
    case Ok(base) =>
      match Overlay(base, env, 0)
      case Err(e) => Err(e)
      case Ok(data) =>
        Ok(TakeSections(data, UnknownVariableWarnings(UnknownVariables(env)) + DuplicateWarnings(env, 0)))
  }

  /**
   * Takes the `slicedimage` section and the `validation.strict` flag out of
   * the overlaid data; whatever remains is warned about once.
   */
  function TakeSections(data: Value, warnings: seq<Warning>): (r: StarfishConfig)
    ensures Find(data, SlicedImagePath).Ok? ==> r.slicedimage == Find(data, SlicedImagePath).value
    ensures Find(data, SlicedImagePath).Err? ==> r.slicedimage == Map(map[])
    ensures r.strict <==> Find(data, StrictPath).Ok? && Truthy(Find(data, StrictPath).value)
    ensures data.Map? ==> r.data.Map? && Find(r.data, SlicedImagePath) == Err(KeyNotFound) && Find(r.data, StrictPath).Err?
    ensures warnings <= r.warnings && |r.warnings| <= |warnings| + 1
    ensures |r.warnings| == |warnings| + 1 <==> Truthy(r.data)
    ensures |r.warnings| == |warnings| + 1 ==> r.warnings[|warnings|] == UnknownConfig(r.data)
    ensures forall q :: Unrelated(q, SlicedImagePath) && Unrelated(q, StrictPath) ==> Find(r.data, q) == Find(data, q)
  {
    RemoveSectionsFrame(data);
    var slicedimage := WithDefault(Find(data, SlicedImagePath), Some(Map(map[]))).value;
    var afterSlicedImage := RemoveAt(data, SlicedImagePath);
    assert Find(afterSlicedImage, StrictPath) == Find(data, StrictPath) by {
      if Find(data, SlicedImagePath).Ok? {
        DivergentUnrelated(SlicedImagePath, StrictPath, 0);
        PruneUnrelated(data.fields, SlicedImagePath, StrictPath);
      }
    }
    var strict := WithDefault(Find(afterSlicedImage, StrictPath), Some(Bool(false))).value;
    var leftover := RemoveAt(afterSlicedImage, StrictPath);
    StarfishConfig(leftover, Truthy(strict), slicedimage,
                   warnings + (if Truthy(leftover) then [UnknownConfig(leftover)] else []))
  }

  /** Taking out `slicedimage` and `validation.strict` leaves every unrelated path as it was. */
  lemma RemoveSectionsFrame(data: Value)
    ensures forall q :: Unrelated(q, SlicedImagePath) && Unrelated(q, StrictPath) ==>
              Find(RemoveAt(RemoveAt(data, SlicedImagePath), StrictPath), q) == Find(data, q)
  {
    var rest := RemoveAt(data, SlicedImagePath);
    forall q | Unrelated(q, SlicedImagePath) && Unrelated(q, StrictPath)
      ensures Find(RemoveAt(rest, StrictPath), q) == Find(data, q)
    {
      if Find(data, SlicedImagePath).Ok? {
        PruneUnrelated(data.fields, SlicedImagePath, q);
      }
      if Find(rest, StrictPath).Ok? {
        PruneUnrelated(rest.fields, StrictPath, q);
      }
    }
  }

  /** The section extraction done with a Config object and `lookup(..., remove=True)`. */
  method ConsumeSections(data: Value, warnings: seq<Warning>) returns (s: StarfishConfig)
    ensures s == TakeSections(data, warnings)
  {
    var config := new Config(data);
    var slicedimage := config.Lookup(SlicedImagePath, Some(Map(map[])), true);
    var strict := config.Lookup(StrictPath, Some(Bool(false)), true);
    var all := warnings;
    if Truthy(config.data) {
      all := all + [UnknownConfig(config.data)];
    }
    s := StarfishConfig(config.data, Truthy(strict.value), slicedimage.value, all);
  }

  /**
   * Lays each option over `base` in turn, noting every option set under both
   * of its names.
   */
  method ApplyOverlays(base: Value, env: Environment) returns (r: Result<Value, BuildError>, duplicates: seq<Warning>)
    ensures r == Overlay(base, env, 0)
    ensures r.Ok? ==> duplicates == DuplicateWarnings(env, 0)
  {
    var data := base;
    duplicates := [];
    var i := 0;
    while i < |Options|
      invariant 0 <= i <= |Options|
      invariant Overlay(base, env, 0) == Overlay(data, env, i)
      invariant DuplicateWarnings(env, 0) == duplicates + DuplicateWarnings(env, i)
    {
      var applied;
      applied, duplicates := ApplyStep(data, env, i, duplicates);
      if applied.Err? {
        return Err(applied.error), duplicates;
      }
      data := applied.value;
      i := i + 1;
    }
    r := Ok(data);
  }

  /**
   * One iteration of the overlay loop: the option set from the environment,
   * and the warnings so far extended by its duplicate warning, if any.
   */
  method ApplyStep(data: Value, env: Environment, i: nat, before: seq<Warning>)
    returns (applied: Result<Value, BuildError>, after: seq<Warning>)
    requires i < |Options|
    ensures applied.Ok? ==> Overlay(data, env, i) == Overlay(applied.value, env, i + 1)
    ensures applied.Err? ==> Overlay(data, env, i) == Err(applied.error)
    ensures before + DuplicateWarnings(env, i) == after + DuplicateWarnings(env, i + 1)
  {
    var warning: seq<Warning> := [];
    if Duplicated(env, Options[i]) {
      warning := [DuplicateVariable(Options[i].legacy.value)];
    }
    assert DuplicateWarnings(env, i) == warning + DuplicateWarnings(env, i + 1);
    after := before + warning;
    assert |Options[i].path| > 0 by {
      OptionPathsUnrelated();
    }
    applied := ApplyOption(data, env, Options[i]);
  }


  /**
   * Builds the configuration step by step: scan the environment, load the
   * base configuration, lay each option over it, then take the known
   * sections out of a Config with `lookup(..., remove=True)`.
   */
  method Build(env: Environment, files: map<string, string>, parse: string -> Option<Value>)
    returns (r: Result<StarfishConfig, BuildError>)
    ensures r == Resolve(env, files, parse)
  {
    var unknown := ScanEnvironment(env);
    var base: Value;
    match Getenv(env, ConfigVariable) {
      case None =>
        base := Map(map[]);
      case Some(s) =>
        var loaded := Config.Load(Text(s), files, parse);
        if loaded.Err? {
          return Err(LoadFailed(loaded.error));
        }
        base := loaded.value.data;
    }

    var overlaid, duplicates := ApplyOverlays(base, env);
    if overlaid.Err? {
      return Err(overlaid.error);
    }
    var settled := ConsumeSections(overlaid.value, UnknownVariableWarnings(unknown) + duplicates);
    r := Ok(settled);
  }
}

module StarfishConfigProperties {
  import opened Wrappers
  import opened ConfigValues
  import opened NestedDicts
  import opened Configs
  import opened StarfishConfigs

  /**
   * `strict` comes from STARFISH_VALIDATION_STRICT when it is set, else from
   * `validation.strict` in the configuration file, else it is off.
   */
  lemma StrictFromEnvironmentOrFile(env: Environment, files: map<string, string>, parse: string -> Option<Value>)
    requires Resolve(env, files, parse).Ok?
    ensures BaseConfig(env, files, parse).Ok?
    ensures var base := BaseConfig(env, files, parse).value;
            Resolve(env, files, parse).value.strict ==
              match Getenv(env, Strict.variable)
              case Some(raw) => ParseFlag(raw)
              case None => Find(base, StrictPath).Ok? && Truthy(Find(base, StrictPath).value)
  {
    var base := BaseConfig(env, files, parse).value;
    var data := Overlay(base, env, 0).value;
    OptionPathsUnrelated();
    assert Options[2] == Strict;
    OverlayFind(base, env, 0, 2);
    if Find(data, SlicedImagePath).Ok? {
      PruneUnrelated(data.fields, SlicedImagePath, StrictPath);
    }
  }

  /**
   * The caching options in `slicedimage` hold the parsed value of their
   * STARFISH_ variable, else of their older unprefixed variable, else what
   * the configuration file had.
   */
  lemma SlicedImageFromEnvironmentOrFile(env: Environment, files: map<string, string>, parse: string -> Option<Value>, opt: EnvOption)
    requires opt == SizeLimit || opt == Directory
    requires Resolve(env, files, parse).Ok?
    ensures BaseConfig(env, files, parse).Ok?
    ensures var s := Resolve(env, files, parse).value;
            Override(env, opt).Some? ==>
              && ParseValue(opt.parser, Override(env, opt).value.1).Some?
              && Find(s.slicedimage, opt.path[1..]) == Ok(ParseValue(opt.parser, Override(env, opt).value.1).value)
    ensures var s := Resolve(env, files, parse).value;
            var base := BaseConfig(env, files, parse).value;
            Override(env, opt).None? ==>
              && (Find(base, opt.path).Ok? ==> Find(s.slicedimage, opt.path[1..]) == Find(base, opt.path))
              && (Find(base, opt.path).Err? ==> Find(s.slicedimage, opt.path[1..]).Err?)
  {
    var base := BaseConfig(env, files, parse).value;
    var data := Overlay(base, env, 0).value;
    var j := if opt == SizeLimit then 0 else 1;
    assert Options[j] == opt;
    OverlayFind(base, env, 0, j);
    FindAppend(data, SlicedImagePath, opt.path[1..]);
    assert SlicedImagePath + opt.path[1..] == opt.path;
  }

  /**
   * A name is warned about as a duplicated variable exactly when it is the
   * older name of an option set under both of its names, and no such name is
   * warned about twice.
   */
  lemma ResolveDuplicateWarnings(env: Environment, files: map<string, string>, parse: string -> Option<Value>, n: string)
    requires Resolve(env, files, parse).Ok?
    ensures var ws := Resolve(env, files, parse).value.warnings;
            DuplicateVariable(n) in ws <==>
              exists k :: 0 <= k < |Options| && Options[k].legacy == Some(n) && Duplicated(env, Options[k])
    ensures var ws := Resolve(env, files, parse).value.warnings;
            forall a, b :: 0 <= a < b < |ws| && ws[a].DuplicateVariable? ==> ws[a] != ws[b]
  {
    var base := BaseConfig(env, files, parse).value;
    var data := Overlay(base, env, 0).value;
    var us := UnknownVariableWarnings(UnknownVariables(env));
    var pre := us + DuplicateWarnings(env, 0);
    ResolveFrom(env, files, parse, base, data);
    var ws := TakeSections(data, pre).warnings;
    assert Resolve(env, files, parse).value.warnings == ws;
    var tail := ws[|pre|..];
    assert ws == pre + tail;
    DuplicatesAmong(env, us, tail, n);
  }

  /** The duplicate warnings among unknown-variable warnings before them and leftover warnings after them. */
  lemma DuplicatesAmong(env: Environment, us: seq<Warning>, tail: seq<Warning>, n: string)
    requires forall a :: 0 <= a < |us| ==> us[a].UnknownVariable?
    requires forall a :: 0 <= a < |tail| ==> tail[a].UnknownConfig?
    ensures var ws := us + DuplicateWarnings(env, 0) + tail;
            DuplicateVariable(n) in ws <==>
              exists k :: 0 <= k < |Options| && Options[k].legacy == Some(n) && Duplicated(env, Options[k])
    ensures var ws := us + DuplicateWarnings(env, 0) + tail;
            forall a, b :: 0 <= a < b < |ws| && ws[a].DuplicateVariable? ==> ws[a] != ws[b]
  {
    var ds := DuplicateWarnings(env, 0);
    var ws := us + ds + tail;
    DuplicateWarningsExact(env, 0, n);
    DuplicateWarningsOnce(env);
    assert forall a :: 0 <= a < |us| ==> ws[a] == us[a];
    assert forall a :: 0 <= a < |ds| ==> ws[|us| + a] == ds[a];
    assert forall a :: 0 <= a < |tail| ==> ws[|us| + |ds| + a] == tail[a];
    if DuplicateVariable(n) in ds {
      var a :| 0 <= a < |ds| && ds[a] == DuplicateVariable(n);
      assert ws[|us| + a] == DuplicateVariable(n);
    }
    if DuplicateVariable(n) in ws {
      var a :| 0 <= a < |ws| && ws[a] == DuplicateVariable(n);
      assert ds[a - |us|] == DuplicateVariable(n);
    }
    forall a, b | 0 <= a < b < |ws| && ws[a].DuplicateVariable? ensures ws[a] != ws[b] {
      if b < |us| + |ds| {
        assert ws[a] == ds[a - |us|] && ws[b] == ds[b - |us|];
      } else {
        assert ws[b] == tail[b - |us| - |ds|];
      }
    }
  }

  /**
   * Leftover configuration is warned about exactly when what remains of the
   * overlaid configuration, once `slicedimage` and `validation.strict` are
   * taken out, is truthy (a non-empty mapping), and it is warned about at
   * most once.
   */
  lemma ResolveLeftoverWarning(env: Environment, files: map<string, string>, parse: string -> Option<Value>)
    requires Resolve(env, files, parse).Ok?
    ensures BaseConfig(env, files, parse).Ok? && Overlay(BaseConfig(env, files, parse).value, env, 0).Ok?
    ensures var data := Overlay(BaseConfig(env, files, parse).value, env, 0).value;
            var ws := Resolve(env, files, parse).value.warnings;
            (exists k :: 0 <= k < |ws| && ws[k].UnknownConfig?) <==>
              Truthy(RemoveAt(RemoveAt(data, SlicedImagePath), StrictPath))
    ensures var ws := Resolve(env, files, parse).value.warnings;
            forall a, b :: 0 <= a < b < |ws| && ws[a].UnknownConfig? ==> !ws[b].UnknownConfig?
  {
    var base := BaseConfig(env, files, parse).value;
    var data := Overlay(base, env, 0).value;
    var pre := UnknownVariableWarnings(UnknownVariables(env)) + DuplicateWarnings(env, 0);
    ResolveFrom(env, files, parse, base, data);
    EarlyWarningsNotLeftover(env);
    LeftoverWarnedOnce(data, pre);
  }

  /**
   * Configuration that is neither under `slicedimage` nor `validation.strict`
   * reaches the constructed configuration's data just as the file gave it,
   * whatever the environment sets.
   */
  lemma ResolveKeepsUnconsumed(env: Environment, files: map<string, string>, parse: string -> Option<Value>)
    requires Resolve(env, files, parse).Ok?
    ensures BaseConfig(env, files, parse).Ok?
    ensures forall q :: Unrelated(q, SlicedImagePath) && Unrelated(q, StrictPath) ==>
              Find(Resolve(env, files, parse).value.data, q) == Find(BaseConfig(env, files, parse).value, q)
    ensures var r := Resolve(env, files, parse).value;
            forall k :: 0 <= k < |r.warnings| && r.warnings[k].UnknownConfig? ==> r.warnings[k] == UnknownConfig(r.data)
  {
    var base := BaseConfig(env, files, parse).value;
    var data := Overlay(base, env, 0).value;
    ResolveFrom(env, files, parse, base, data);
    ResolveLeftoverPayload(env, files, parse);
    OptionPathsUnrelated();
    forall q | Unrelated(q, SlicedImagePath) && Unrelated(q, StrictPath)
      ensures Find(data, q) == Find(base, q)
    {
      assert q != [] && q[0] != "slicedimage";
      DivergentUnrelated(SizeLimit.path, q, 0);
      DivergentUnrelated(Directory.path, q, 0);
      OverlayFrame(base, env, 0, q);
    }
  }

  /** Every leftover warning of a constructed configuration carries that configuration's leftover data. */
  lemma ResolveLeftoverPayload(env: Environment, files: map<string, string>, parse: string -> Option<Value>)
    requires Resolve(env, files, parse).Ok?
    ensures var r := Resolve(env, files, parse).value;
            forall k :: 0 <= k < |r.warnings| && r.warnings[k].UnknownConfig? ==> r.warnings[k] == UnknownConfig(r.data)
  {
    var base := BaseConfig(env, files, parse).value;
    var data := Overlay(base, env, 0).value;
    ResolveFrom(env, files, parse, base, data);
    var pre := UnknownVariableWarnings(UnknownVariables(env)) + DuplicateWarnings(env, 0);
    EarlyWarningsNotLeftover(env);
    assert forall a :: 0 <= a < |pre| ==> Resolve(env, files, parse).value.warnings[a] == pre[a];
  }

  /** The warnings given before section extraction are none of them about leftover configuration. */
  lemma EarlyWarningsNotLeftover(env: Environment)
    ensures var pre := UnknownVariableWarnings(UnknownVariables(env)) + DuplicateWarnings(env, 0);
            forall a :: 0 <= a < |pre| ==> !pre[a].UnknownConfig?
  {
    var us := UnknownVariableWarnings(UnknownVariables(env));
    var ds := DuplicateWarnings(env, 0);
    var pre: seq<Warning> := us + ds;
    forall a | 0 <= a < |pre| ensures !pre[a].UnknownConfig? {
      if a >= |us| {
        assert pre[a] == ds[a - |us|] && ds[a - |us|] in ds;
      }
    }
  }

  /** Section extraction adds a leftover warning exactly when the leftover is truthy, and at most one. */
  lemma LeftoverWarnedOnce(data: Value, pre: seq<Warning>)
    requires forall a :: 0 <= a < |pre| ==> !pre[a].UnknownConfig?
    ensures var ws := TakeSections(data, pre).warnings;
            (exists k :: 0 <= k < |ws| && ws[k].UnknownConfig?) <==>
              Truthy(RemoveAt(RemoveAt(data, SlicedImagePath), StrictPath))
    ensures var ws := TakeSections(data, pre).warnings;
            forall a, b :: 0 <= a < b < |ws| && ws[a].UnknownConfig? ==> !ws[b].UnknownConfig?
  {
    var s := TakeSections(data, pre);
    var ws := s.warnings;
    assert s.data == RemoveAt(RemoveAt(data, SlicedImagePath), StrictPath);
    assert forall a :: 0 <= a < |pre| ==> ws[a] == pre[a];
    if Truthy(s.data) {
      assert ws[|pre|].UnknownConfig?;
    }
  }

  /**
   * The configuration holds nothing besides a `slicedimage` section and a
   * `validation` section holding only `strict`.
   */
  predicate OnlyKnownSections(v: Value)
  {
    && v.Map? && v.fields.Keys <= {"slicedimage", "validation"}
    && ("validation" in v.fields ==> v.fields["validation"].Map? && v.fields["validation"].fields.Keys == {"strict"})
  }

  /** Setting an option keeps a configuration within the known sections. */
  lemma ApplyOptionKeepsKnown(data: Value, env: Environment, k: nat)
    requires k < |Options| && OnlyKnownSections(data) && ApplyOption(data, env, Options[k]).Ok?
    ensures OnlyKnownSections(ApplyOption(data, env, Options[k]).value)
  {
    OptionPathsUnrelated();
    var opt := Options[k];
    if Override(env, opt).Some? {
      var v := ParseValue(opt.parser, Override(env, opt).value.1).value;
      var m := SetIn(data.fields, opt.path, v).value;
      if opt == Strict {
        var child := if "validation" in data.fields then data.fields["validation"] else Map(map[]);
        assert StrictPath[1..] == ["strict"];
        assert m == data.fields["validation" := Map(child.fields["strict" := v])];
      } else {
        assert opt.path[0] == "slicedimage";
        assert "validation" in m ==> m["validation"] == data.fields["validation"];
      }
    }
  }

  /** The overlay keeps a configuration within the known sections. */
  lemma {:induction false} OverlayKeepsKnown(data: Value, env: Environment, i: nat)
    requires i <= |Options| && OnlyKnownSections(data) && Overlay(data, env, i).Ok?
    ensures OnlyKnownSections(Overlay(data, env, i).value)
    decreases |Options| - i
  {
    if i < |Options| {
      ApplyOptionKeepsKnown(data, env, i);
      OverlayKeepsKnown(ApplyOption(data, env, Options[i]).value, env, i + 1);
    }
  }

  /** Taking the known sections out of such a configuration leaves nothing. */
  lemma KnownSectionsLeaveNothing(data: Value)
    requires OnlyKnownSections(data)
    ensures RemoveAt(RemoveAt(data, SlicedImagePath), StrictPath) == Map(map[])
  {
    var rest := RemoveAt(data, SlicedImagePath);
    assert rest.Map? && rest.fields.Keys <= {"validation"};
    assert "validation" in rest.fields ==> rest.fields["validation"] == data.fields["validation"];
    if "validation" in rest.fields {
      var inner := rest.fields["validation"].fields;
      assert "strict" in inner;
      assert StrictPath[1..] == ["strict"];
      assert Find(rest, StrictPath) == Ok(inner["strict"]);
      assert Prune(inner, ["strict"]) == map[];
    }
  }

  /**
   * A configuration file holding only a `slicedimage` section and a
   * `validation` section with only `strict` gives no warning about leftover
   * configuration, whatever the environment sets.
   */
  lemma KnownSectionsNoLeftoverWarning(env: Environment, files: map<string, string>, parse: string -> Option<Value>)
    requires Resolve(env, files, parse).Ok? && BaseConfig(env, files, parse).Ok?
    requires OnlyKnownSections(BaseConfig(env, files, parse).value)
    ensures var ws := Resolve(env, files, parse).value.warnings;
            forall k :: 0 <= k < |ws| ==> !ws[k].UnknownConfig?
  {
    var base := BaseConfig(env, files, parse).value;
    var data := Overlay(base, env, 0).value;
    var pre := UnknownVariableWarnings(UnknownVariables(env)) + DuplicateWarnings(env, 0);
    ResolveFrom(env, files, parse, base, data);
    OverlayKeepsKnown(base, env, 0);
    EarlyWarningsNotLeftover(env);
    NoLeftoverWarning(data, pre);
  }

  /** Section extraction from a configuration within the known sections adds no warning. */
  lemma NoLeftoverWarning(data: Value, pre: seq<Warning>)
    requires OnlyKnownSections(data)
    ensures TakeSections(data, pre).warnings == pre
  {
    KnownSectionsLeaveNothing(data);
  }

  /** A variable no entry of the environment names is unset. */
  lemma Unset(env: Environment, name: string)
    requires forall i :: 0 <= i < |env| ==> env[i].0 != name
    ensures Getenv(env, name) == None
  {
  }

  /** A variable is read from its first entry in the environment. */
  lemma {:induction false} FirstEntry(env: Environment, i: nat)
    requires i < |env| && forall j :: 0 <= j < i ==> env[j].0 != env[i].0
    ensures Getenv(env, env[i].0) == Some(env[i].1)
    decreases i
  {
    if i > 0 {
      FirstEntry(env[1..], i - 1);
    }
  }

  /** Section extraction from data with a `slicedimage` section and no `validation.strict` flag. */
  lemma SlicedImageOnly(data: map<Key, Value>, rest: map<Key, Value>, warnings: seq<Warning>)
    requires "slicedimage" in data && Prune(data, SlicedImagePath) == rest && "validation" !in rest
    ensures TakeSections(Map(data), warnings) ==
              StarfishConfig(Map(rest), false, data["slicedimage"], warnings + (if rest != map[] then [UnknownConfig(Map(rest))] else []))
  {
    assert Find(Map(data), SlicedImagePath) == Ok(data["slicedimage"]);
    assert Find(Map(rest), StrictPath) == Err(KeyNotFound);
  }

  /** The configuration is loaded from the file that STARFISH_CONFIG names with a leading `@`. */
  lemma ConfigFileLoaded(env: Environment, files: map<string, string>, parse: string -> Option<Value>, v: Value)
    requires |env| > 0 && env[0] == (ConfigVariable, "@config")
    requires "config" in files && parse(files["config"]) == Some(v)
    ensures BaseConfig(env, files, parse) == Ok(v)
  {
    FirstEntry(env, 0);
    assert "@config"[1..] == "config";
  }

  /** The overlay is the three option steps in order. */
  lemma OverlaySteps(env: Environment, d0: Value, d1: Value, d2: Value, d3: Value)
    requires ApplyOption(d0, env, SizeLimit) == Ok(d1)
    requires ApplyOption(d1, env, Directory) == Ok(d2)
    requires ApplyOption(d2, env, Strict) == Ok(d3)
    ensures Overlay(d0, env, 0) == Ok(d3)
  {
    assert Options[0] == SizeLimit && Options[1] == Directory && Options[2] == Strict;
  }

  /** `StarfishConfig()` once the base configuration is loaded and overlaid. */
  lemma ResolveFrom(env: Environment, files: map<string, string>, parse: string -> Option<Value>, base: Value, data: Value)
    requires BaseConfig(env, files, parse) == Ok(base) && Overlay(base, env, 0) == Ok(data)
    ensures Resolve(env, files, parse) == Ok(TakeSections(data, UnknownVariableWarnings(UnknownVariables(env)) + DuplicateWarnings(env, 0)))
  {
  }

  /** `test_starfish_environ_warn`: one unknown STARFISH_ variable gives exactly one warning. */
  lemma UnknownVariableWarnsOnce(files: map<string, string>, parse: string -> Option<Value>)
    requires "config" in files && parse(files["config"]) == Some(Map(map[]))
    ensures var env := [(ConfigVariable, "@config"), ("STARFISH_UNKNOWN", "true")];
            && Resolve(env, files, parse).Ok?
            && Resolve(env, files, parse).value.warnings == [UnknownVariable("STARFISH_UNKNOWN")]
  {
    var env := [(ConfigVariable, "@config"), ("STARFISH_UNKNOWN", "true")];
    ConfigFileLoaded(env, files, parse, Map(map[]));
    UnknownVariableOverlay(env);
    ResolveFrom(env, files, parse, Map(map[]), Map(map[]));
    assert UnknownVariableWarnings(["STARFISH_UNKNOWN"]) + [] == [UnknownVariable("STARFISH_UNKNOWN")];
  }

  /** The environment of the unknown-variable scenario sets no option and names one unknown variable. */
  lemma UnknownVariableOverlay(env: Environment)
    requires env == [(ConfigVariable, "@config"), ("STARFISH_UNKNOWN", "true")]
    ensures Overlay(Map(map[]), env, 0) == Ok(Map(map[]))
    ensures DuplicateWarnings(env, 0) == []
    ensures UnknownVariables(env) == ["STARFISH_UNKNOWN"]
  {
    Unset(env, SizeLimit.variable);
    Unset(env, SizeLimit.legacy.value);
    Unset(env, Directory.variable);
    Unset(env, Directory.legacy.value);
    Unset(env, Strict.variable);
    assert Prefix <= "STARFISH_UNKNOWN";
    assert IsUnknownVariable("STARFISH_UNKNOWN") && !IsUnknownVariable(ConfigVariable);
    assert env[..1][..0] == [];
    assert UnknownVariables(env[..1]) == [];
    assert env[..|env| - 1] == env[..1];
  }

  /**
   * `test_starfish_warn`: a leftover `unknown` key beside a recognised
   * override is reported by exactly one warning.
   */
  lemma UnknownConfigKeyWarnsOnce(files: map<string, string>, parse: string -> Option<Value>)
    requires "config" in files && parse(files["config"]) == Some(Map(map["unknown" := Bool(true)]))
    ensures var env := [(ConfigVariable, "@config"), (SizeLimit.variable, "1")];
            && Resolve(env, files, parse).Ok?
            && Resolve(env, files, parse).value.warnings == [UnknownConfig(Map(map["unknown" := Bool(true)]))]
  {
    var env := [(ConfigVariable, "@config"), (SizeLimit.variable, "1")];
    var base := map["unknown" := Bool(true)];
    ConfigFileLoaded(env, files, parse, Map(base));
    var data := SizeLimitOverlay(env, base);
    ResolveFrom(env, files, parse, Map(base), Map(data));
    LeftoverKeyWarned(base, data);
    assert UnknownVariableWarnings([]) + [] == [];
  }

  /** Taking the sections out leaves the `unknown` key, which is warned about. */
  lemma LeftoverKeyWarned(base: map<Key, Value>, data: map<Key, Value>)
    requires base == map["unknown" := Bool(true)]
    requires data == base["slicedimage" := Map(map["caching" := Map(map["size_limit" := Int(1)])])]
    ensures TakeSections(Map(data), []).warnings == [UnknownConfig(Map(base))]
  {
    assert Prune(data, SlicedImagePath) == base;
    SlicedImageOnly(data, base, []);
    assert "unknown" in base;
  }

  /** The overlay of the size-limit scenario: only the size limit is set, to 1, under its STARFISH_ name. */
  lemma SizeLimitOverlay(env: Environment, base: map<Key, Value>) returns (data: map<Key, Value>)
    requires env == [(ConfigVariable, "@config"), (SizeLimit.variable, "1")]
    requires "slicedimage" !in base
    ensures data == base["slicedimage" := Map(map["caching" := Map(map["size_limit" := Int(1)])])]
    ensures Overlay(Map(base), env, 0) == Ok(Map(data))
    ensures DuplicateWarnings(env, 0) == []
    ensures UnknownVariables(env) == []
  {
    FirstEntry(env, 1);
    Unset(env, SizeLimit.legacy.value);
    Unset(env, Directory.variable);
    Unset(env, Directory.legacy.value);
    Unset(env, Strict.variable);
    ParseOne();
    data := base["slicedimage" := Map(map["caching" := Map(map["size_limit" := Int(1)])])];
    assert SizeLimit.path[1..] == ["caching", "size_limit"] && ["caching", "size_limit"][1..] == ["size_limit"];
    assert SetIn(base, SizeLimit.path, Int(1)) == Ok(data);
    OverlaySteps(env, Map(base), Map(data), Map(data), Map(data));
    assert !IsUnknownVariable(ConfigVariable) && !IsUnknownVariable(SizeLimit.variable);
    NoneUnknown(env);
  }

  /**
   * `test_starfish_environ_warn_on_duplicate`: with both spellings of the
   * caching directory set, the STARFISH_ one wins and exactly one warning is
   * given.
   */
  lemma DuplicateVariableWarnsOnce(files: map<string, string>, parse: string -> Option<Value>)
    requires "config" in files && parse(files["config"]) == Some(Map(map[]))
    ensures var env := [(ConfigVariable, "@config"), ("SLICEDIMAGE_CACHING_DIRECTORY", "foo"),
                        ("STARFISH_SLICEDIMAGE_CACHING_DIRECTORY", "bar")];
            && Resolve(env, files, parse).Ok?
            && Find(Resolve(env, files, parse).value.slicedimage, ["caching", "directory"]) == Ok(Str("bar"))
            && Resolve(env, files, parse).value.warnings == [DuplicateVariable("SLICEDIMAGE_CACHING_DIRECTORY")]
  {
    var env := [(ConfigVariable, "@config"), ("SLICEDIMAGE_CACHING_DIRECTORY", "foo"),
                ("STARFISH_SLICEDIMAGE_CACHING_DIRECTORY", "bar")];
    ConfigFileLoaded(env, files, parse, Map(map[]));
    var data := DirectoryOverlay(env);
    DirectoryNamesKnown(env);
    ResolveFrom(env, files, parse, Map(map[]), Map(data));
    var warnings := [DuplicateVariable("SLICEDIMAGE_CACHING_DIRECTORY")];
    assert UnknownVariableWarnings([]) + warnings == warnings;
    assert Prune(data, SlicedImagePath) == map[];
    SlicedImageOnly(data, map[], warnings);
    assert ["caching", "directory"][1..] == ["directory"];
  }

  /** The overlay of the duplicate scenario: the STARFISH_ directory wins, and the duplicate is noted. */
  lemma DirectoryOverlay(env: Environment) returns (data: map<Key, Value>)
    requires env == [(ConfigVariable, "@config"), ("SLICEDIMAGE_CACHING_DIRECTORY", "foo"),
                     ("STARFISH_SLICEDIMAGE_CACHING_DIRECTORY", "bar")]
    ensures data == map["slicedimage" := Map(map["caching" := Map(map["directory" := Str("bar")])])]
    ensures Overlay(Map(map[]), env, 0) == Ok(Map(data))
    ensures DuplicateWarnings(env, 0) == [DuplicateVariable("SLICEDIMAGE_CACHING_DIRECTORY")]
  {
    DirectoryVariables(env);
    data := map["slicedimage" := Map(map["caching" := Map(map["directory" := Str("bar")])])];
    assert Directory.path[1..] == ["caching", "directory"] && ["caching", "directory"][1..] == ["directory"];
    assert SetIn(map[], Directory.path, Str("bar")) == Ok(data);
    OverlaySteps(env, Map(map[]), Map(map[]), Map(data), Map(data));
  }

  /** Which variables the duplicate scenario sets. */
  lemma DirectoryVariables(env: Environment)
    requires env == [(ConfigVariable, "@config"), ("SLICEDIMAGE_CACHING_DIRECTORY", "foo"),
                     ("STARFISH_SLICEDIMAGE_CACHING_DIRECTORY", "bar")]
    ensures Override(env, SizeLimit) == None && Override(env, Strict) == None
    ensures Override(env, Directory) == Some((Directory.variable, "bar"))
    ensures DuplicateWarnings(env, 0) == [DuplicateVariable("SLICEDIMAGE_CACHING_DIRECTORY")]
  {
    Unset(env, SizeLimit.variable);
    Unset(env, SizeLimit.legacy.value);
    Unset(env, Strict.variable);
    FirstEntry(env, 1);
    FirstEntry(env, 2);
  }

  /** The variables of the duplicate scenario are all known, or not `STARFISH_` ones. */
  lemma DirectoryNamesKnown(env: Environment)
    requires env == [(ConfigVariable, "@config"), ("SLICEDIMAGE_CACHING_DIRECTORY", "foo"),
                     ("STARFISH_SLICEDIMAGE_CACHING_DIRECTORY", "bar")]
    ensures UnknownVariables(env) == []
  {
    assert !IsUnknownVariable(ConfigVariable) && !IsUnknownVariable(Directory.variable);
    assert !IsUnknownVariable("SLICEDIMAGE_CACHING_DIRECTORY") by {
      assert "SLICEDIMAGE_CACHING_DIRECTORY"[1] != Prefix[1];
    }
    NoneUnknown(env);
  }

  /** `test_starfish_environ` (strict variable removed): an empty environment gives an empty, non-strict configuration. */
  lemma EmptyEnvironment(files: map<string, string>, parse: string -> Option<Value>)
    ensures Resolve([], files, parse) == Ok(StarfishConfig(Map(map[]), false, Map(map[]), []))
  {
    assert UnknownVariableWarnings([]) + [] == [];
  }

  /** `test_starfish_environ` (strict variable set): STARFISH_VALIDATION_STRICT turns strict mode on. */
  lemma StrictVariable(files: map<string, string>, parse: string -> Option<Value>)
    ensures var env := [(Strict.variable, "true")];
            && Resolve(env, files, parse).Ok?
            && Resolve(env, files, parse).value.strict
            && Resolve(env, files, parse).value.warnings == []
  {
    var env := [(Strict.variable, "true")];
    var data := StrictOverlay(env);
    ResolveFrom(env, files, parse, Map(map[]), Map(data));
    StrictOnly(data);
    assert UnknownVariableWarnings([]) + [] == [];
  }

  /** Section extraction from data holding only `validation.strict`, set on. */
  lemma StrictOnly(data: map<Key, Value>)
    requires data == map["validation" := Map(map["strict" := Bool(true)])]
    ensures TakeSections(Map(data), []) == StarfishConfig(Map(map[]), true, Map(map[]), [])
  {
    assert Find(Map(data), StrictPath) == Ok(Bool(true));
    assert Prune(data, StrictPath) == map[];
  }

  /** The overlay of the strict scenario: only the strict flag is set, and no variable is unknown or duplicated. */
  lemma StrictOverlay(env: Environment) returns (data: map<Key, Value>)
    requires env == [(Strict.variable, "true")]
    ensures data == map["validation" := Map(map["strict" := Bool(true)])]
    ensures Getenv(env, ConfigVariable) == None
    ensures Overlay(Map(map[]), env, 0) == Ok(Map(data))
    ensures DuplicateWarnings(env, 0) == [] && UnknownVariables(env) == []
  {
    Unset(env, ConfigVariable);
    Unset(env, SizeLimit.variable);
    Unset(env, SizeLimit.legacy.value);
    Unset(env, Directory.variable);
    Unset(env, Directory.legacy.value);
    FirstEntry(env, 0);
    data := map["validation" := Map(map["strict" := Bool(true)])];
    assert StrictPath[1..] == ["strict"];
    assert SetIn(map[], Strict.path, Bool(true)) == Ok(data);
    OverlaySteps(env, Map(map[]), Map(map[]), Map(map[]), Map(data));
    assert !IsUnknownVariable(Strict.variable);
    NoneUnknown(env);
  }

  lemma ParseOne()
    ensures ParseValue(AsInt, "1") == Some(Int(1))
  {
    assert AllDigits("1") && "1"[..0] == [];
  }

  /**
   * `test_starfish_config` (size limit): setting either spelling of the
   * size-limit variable to `1` overrides the size limit of the file.
   */
  lemma SizeLimitFromEitherVariable(env: Environment, files: map<string, string>, parse: string -> Option<Value>)
    requires Resolve(env, files, parse).Ok?
    requires || Getenv(env, SizeLimit.variable) == Some("1")
             || (Getenv(env, SizeLimit.variable).None? && Getenv(env, SizeLimit.legacy.value) == Some("1"))
    ensures Find(Resolve(env, files, parse).value.slicedimage, ["caching", "size_limit"]) == Ok(Int(1))
  {
    SlicedImageFromEnvironmentOrFile(env, files, parse, SizeLimit);
    assert Override(env, SizeLimit).Some? && Override(env, SizeLimit).value.1 == "1";
    ParseOne();
    assert SizeLimit.path[1..] == ["caching", "size_limit"];
  }

  /** `test_starfish_config_value_default_key`: STARFISH_CONFIG may hold the JSON text itself. */
  lemma ConfigFromLiteral(files: map<string, string>, parse: string -> Option<Value>, json: string)
    requires |json| > 0 && json[0] != '@' && parse(json) == Some(Map(map["a" := Int(1)]))
    ensures BaseConfig([(ConfigVariable, json)], files, parse) == Ok(Map(map["a" := Int(1)]))
    ensures Resolve([(ConfigVariable, json)], files, parse).Ok?
    ensures Resolve([(ConfigVariable, json)], files, parse).value.data == Map(map["a" := Int(1)])
  {
    var env := [(ConfigVariable, json)];
    FirstEntry(env, 0);
    Unset(env, SizeLimit.variable);
    Unset(env, SizeLimit.legacy.value);
    Unset(env, Directory.variable);
    Unset(env, Directory.legacy.value);
    Unset(env, Strict.variable);
    var base := Map(map["a" := Int(1)]);
    OverlaySteps(env, base, base, base, base);
    ResolveFrom(env, files, parse, base, base);
  }
}

=== FILE: transforms_list.dfy ===
/**
 * TransformsList: the registration transforms to apply to an image stack, as
 * a list of (selectors, transform type, transform object) entries, with the
 * conversion to and from the JSON-ready form that `to_json` writes and
 * `from_json` reads. The matrix of a transform is an opaque sequence of rows.
 */
module TransformsLists {
  import opened Wrappers

  /** The image stack axes a selector can name. */
  datatype Axis = Round | Ch | ZPlane | Y | X

  /** `Axes.<member>.value`. */
  function AxisValue(a: Axis): string
  {
    match a
    case Round => "r"
    case Ch => "c"
    case ZPlane => "z"
    case Y => "y"
    case X => "x"
  }

  /** `Axes(s)`: the axis whose value is `s`; any other string is rejected. */
  function ParseAxis(s: string): (r: Option<Axis>)
    ensures r.Some? ==> AxisValue(r.value) == s
    ensures r.None? ==> forall a: Axis :: AxisValue(a) != s
  {
    if s == "r" then Some(Round)
    else if s == "c" then Some(Ch)
    else if s == "z" then Some(ZPlane)
    else if s == "y" then Some(Y)
    else if s == "x" then Some(X)
    else None
  }

  lemma AxisRoundTrip(a: Axis)
    ensures ParseAxis(AxisValue(a)) == Some(a)
  {
  }

  datatype TransformType = Similarity

  /** `TransformType.<member>.value`. */
  function TypeValue(t: TransformType): string
  {
    match t
    case Similarity => "similarity"
  }

  /** `TransformType(s)`. */
  function ParseType(s: string): (r: Option<TransformType>)
    ensures r.Some? ==> TypeValue(r.value) == s
    ensures r.None? ==> forall t: TransformType :: TypeValue(t) != s
  {
    if s == "similarity" then Some(Similarity) else None
  }

  lemma TypeRoundTrip(t: TransformType)
    ensures ParseType(TypeValue(t)) == Some(t)
  {
    match t
    case Similarity => assert TypeValue(t) == "similarity";
  }

  /** The class of a geometric transform object. */
  datatype TransformKind = SimilarityTransform | OtherTransform(name: string)

  type Matrix = seq<seq<real>>

  /** A geometric transform object: its class and its `params` matrix. */
  datatype GeometricTransform = GeometricTransform(kind: TransformKind, params: Matrix)

  /** `transformsTypeMapping`: the class `from_json` instantiates for each type. */
  const TypeMapping: map<TransformType, TransformKind> := map[Similarity := SimilarityTransform]

  /** One entry of the list. */
  datatype Entry = Entry(selectors: map<Axis, int>, ttype: TransformType, transform: GeometricTransform)

  /** One entry as written to JSON: string-keyed selectors, the type's value, the matrix as nested lists. */
  datatype EncodedEntry = EncodedEntry(selectors: map<string, int>, ttype: string, matrix: Matrix)

  datatype DecodeError = InvalidAxis | InvalidTransformType | UnmappedTransformType

  /** `{k.value: v for k, v in selectors.items()}`. */
  function EncodeSelectors(sel: map<Axis, int>): (r: map<string, int>)
    ensures forall a :: a in sel <==> AxisValue(a) in r
    ensures forall a :: a in sel ==> r[AxisValue(a)] == sel[a]
    ensures forall k :: k in r ==> ParseAxis(k).Some?
  {
    map a | a in sel :: AxisValue(a) := sel[a]
  }

  /** `{Axes(k): v for k, v in selectors_str.items()}`: fails when any key is not an axis value. */
  function DecodeSelectors(s: map<string, int>): (r: Result<map<Axis, int>, DecodeError>)
    ensures r.Err? <==> exists k :: k in s && ParseAxis(k).None?
    ensures r.Err? ==> r.error == InvalidAxis
    ensures r.Ok? ==> forall a :: a in r.value <==> AxisValue(a) in s
    ensures r.Ok? ==> forall a :: a in r.value ==> r.value[a] == s[AxisValue(a)]
  {
    if exists k :: k in s && ParseAxis(k).None? then Err(InvalidAxis)
    else Ok(map a | AxisValue(a) in s :: s[AxisValue(a)])
  }

  /** Decoding encoded selectors gives them back. */
  lemma SelectorsRoundTrip(sel: map<Axis, int>)
    ensures DecodeSelectors(EncodeSelectors(sel)) == Ok(sel)
  {
    var e := EncodeSelectors(sel);
    assert !exists k :: k in e && ParseAxis(k).None?;
    var d := DecodeSelectors(e);
    assert d.Ok?;
    forall a ensures a in d.value <==> a in sel {
      assert a in d.value <==> AxisValue(a) in e;
    }
    assert d.value.Keys == sel.Keys;
    assert forall a :: a in sel ==> d.value[a] == sel[a];
    assert d.value == sel;
  }

  /** Encoding decoded selectors gives back the JSON form that was read. */
  lemma SelectorsDecodeEncode(s: map<string, int>)
    requires DecodeSelectors(s).Ok?
    ensures EncodeSelectors(DecodeSelectors(s).value) == s
  {
    var e := EncodeSelectors(DecodeSelectors(s).value);
    forall k | k in s ensures k in e {
      assert AxisValue(ParseAxis(k).value) == k;
    }
    assert e.Keys == s.Keys;
  }

  /**
   * One iteration of the `to_json` loop: the selectors and the type are
   * written as strings that read back as the same axes and type, and the
   * matrix is written as it is.
   */
  function EncodeEntry(e: Entry): (r: EncodedEntry)
    ensures DecodeSelectors(r.selectors) == Ok(e.selectors)
    ensures ParseType(r.ttype) == Some(e.ttype)
    ensures r.matrix == e.transform.params
  {
    SelectorsRoundTrip(e.selectors);
    TypeRoundTrip(e.ttype);
    EncodedEntry(EncodeSelectors(e.selectors), TypeValue(e.ttype), e.transform.params)
  }

  /**
   * One iteration of the `from_json` loop: the selectors are converted first,
   * then the type, then the type's class is looked up and instantiated on the
   * matrix.
   */
  function DecodeEntry(x: EncodedEntry): (r: Result<Entry, DecodeError>)
    ensures DecodeSelectors(x.selectors).Err? ==> r == Err(InvalidAxis)
    ensures DecodeSelectors(x.selectors).Ok? && ParseType(x.ttype).None? ==> r == Err(InvalidTransformType)
    ensures DecodeSelectors(x.selectors).Ok? && ParseType(x.ttype).Some? && ParseType(x.ttype).value !in TypeMapping ==>
              r == Err(UnmappedTransformType)
    ensures r.Ok? ==> r.value.ttype in TypeMapping && r.value.transform.kind == TypeMapping[r.value.ttype]
  {
    match DecodeSelectors(x.selectors)
    case Err(e) => Err(e)
    case Ok(sel) =>
      match ParseType(x.ttype)
      case None => Err(InvalidTransformType)
      case Some(t) =>
        if t !in TypeMapping then Err(UnmappedTransformType)
        else Ok(Entry(sel, t, GeometricTransform(TypeMapping[t], x.matrix)))
  }

  /** Encoding a decoded entry gives back the JSON form that was read. */
  lemma DecodeThenEncode(x: EncodedEntry)
    requires DecodeEntry(x).Ok?
    ensures EncodeEntry(DecodeEntry(x).value) == x
  {
    SelectorsDecodeEncode(x.selectors);
  }

  /** An entry whose transform object is of the class its type maps to survives encoding and decoding. */
  lemma EntryRoundTrip(e: Entry)
    requires e.ttype in TypeMapping && e.transform.kind == TypeMapping[e.ttype]
    ensures DecodeEntry(EncodeEntry(e)) == Ok(e)
  {
    SelectorsRoundTrip(e.selectors);
    assert ParseType(TypeValue(e.ttype)) == Some(e.ttype);
  }

  /** The array `to_json` builds: one encoded entry per entry, in order. */
  function EncodeAll(ts: seq<Entry>): (r: seq<EncodedEntry>)
    ensures |r| == |ts| && forall i :: 0 <= i < |ts| ==> r[i] == EncodeEntry(ts[i])
  {
    seq(|ts|, i requires 0 <= i < |ts| => EncodeEntry(ts[i]))
  }

  /** The list `from_json` builds, or the error of the first entry that cannot be decoded. */
  function DecodeAll(arr: seq<EncodedEntry>): (r: Result<seq<Entry>, DecodeError>)
    ensures r.Ok? <==> forall i :: 0 <= i < |arr| ==> DecodeEntry(arr[i]).Ok?
    ensures r.Ok? ==> |r.value| == |arr| && forall i :: 0 <= i < |arr| ==> r.value[i] == DecodeEntry(arr[i]).value
    decreases |arr|
  {
    if arr == [] then Ok([])
    else
      var init := arr[..|arr| - 1];
      var front := DecodeAll(init);
      var last := DecodeEntry(arr[|arr| - 1]);
      assert forall i :: 0 <= i < |init| ==> init[i] == arr[i];
      if front.Err? then
        assert exists i :: 0 <= i < |init| && DecodeEntry(init[i]).Err?;
        Err(front.error)
      else if last.Err? then Err(last.error)
      else
        var out := front.value + [last.value];
        assert forall i :: 0 <= i < |init| ==> out[i] == front.value[i];
        assert out[|init|] == last.value;
        Ok(out)
  }

  /** A failed decoding reports the error of the first entry that fails. */
  lemma {:induction false} FirstFailure(arr: seq<EncodedEntry>)
    requires DecodeAll(arr).Err?
    ensures exists i :: 0 <= i < |arr| && DecodeEntry(arr[i]) == Err(DecodeAll(arr).error) &&
                        forall j :: 0 <= j < i ==> DecodeEntry(arr[j]).Ok?
    decreases |arr|
  {
    var init := arr[..|arr| - 1];
    assert forall i :: 0 <= i < |init| ==> init[i] == arr[i];
    if DecodeAll(init).Err? {
      FirstFailure(init);
    } else {
      assert DecodeEntry(arr[|arr| - 1]) == Err(DecodeAll(arr).error);
    }
  }

  /**
   * Decoding what was encoded gives the entries back, provided every
   * transform object is of the class its type maps to.
   */
  lemma ListRoundTrip(ts: seq<Entry>)
    requires forall i :: 0 <= i < |ts| ==> ts[i].ttype in TypeMapping && ts[i].transform.kind == TypeMapping[ts[i].ttype]
    ensures DecodeAll(EncodeAll(ts)) == Ok(ts)
  {
    forall i | 0 <= i < |ts| ensures DecodeEntry(EncodeAll(ts)[i]) == Ok(ts[i]) {
      EntryRoundTrip(ts[i]);
    }
    var d := DecodeAll(EncodeAll(ts));
    assert d.Ok? && |d.value| == |ts|;
    assert forall i :: 0 <= i < |ts| ==> d.value[i] == ts[i];
    assert d.value == ts;
  }

  /** Encoding what was decoded gives the array back. */
  lemma ArrayRoundTrip(arr: seq<EncodedEntry>)
    requires DecodeAll(arr).Ok?
    ensures EncodeAll(DecodeAll(arr).value) == arr
  {
    forall i | 0 <= i < |arr| ensures EncodeAll(DecodeAll(arr).value)[i] == arr[i] {
      DecodeThenEncode(arr[i]);
    }
  }

  /** The `from_json` loop, without reading the file. */
  method DecodeEntries(arr: seq<EncodedEntry>) returns (r: Result<seq<Entry>, DecodeError>)
    ensures r == DecodeAll(arr)
  {
    var out: seq<Entry> := [];
    var i := 0;
    while i < |arr|
      invariant 0 <= i <= |arr|
      invariant DecodeAll(arr[..i]) == Ok(out)
    {
      assert arr[..i + 1][..i] == arr[..i];
      match DecodeEntry(arr[i]) {
        case Err(e) =>
          PrefixFailure(arr, i + 1);
          return Err(e);
        case Ok(entry) =>
          out := out + [entry];
      }
      i := i + 1;
    }
    assert arr[..|arr|] == arr;
    return Ok(out);
  }

  /** A prefix that fails to decode makes the whole array fail with the same error. */
  lemma {:induction false} PrefixFailure(arr: seq<EncodedEntry>, n: nat)
    requires n <= |arr| && DecodeAll(arr[..n]).Err?
    ensures DecodeAll(arr) == DecodeAll(arr[..n])
    decreases |arr| - n
  {
    if n < |arr| {
      assert arr[..n + 1][..n] == arr[..n];
      PrefixFailure(arr, n + 1);
    } else {
      assert arr[..n] == arr;
    }
  }

  class TransformsList {
    var transforms: seq<Entry>

    /** `TransformsList(transforms_list)`: a missing or empty list gives an empty one. */
    constructor (initial: Option<seq<Entry>>)
      ensures initial.Some? ==> transforms == initial.value
      ensures initial.None? ==> transforms == []
    {
      if initial.Some? && initial.value != [] {
        transforms := initial.value;
      } else {
        transforms := [];
      }
    }

    /** `append`: one entry at the end, in place. */
    method Append(selectors: map<Axis, int>, ttype: TransformType, transform: GeometricTransform)
      modifies this
      ensures transforms == old(transforms) + [Entry(selectors, ttype, transform)]
    {
      transforms := transforms + [Entry(selectors, ttype, transform)];
    }

    /** The array `to_json` writes, built one entry at a time. */
    method ToJson() returns (arr: seq<EncodedEntry>)
      ensures arr == EncodeAll(transforms)
    {
      arr := [];
      var i := 0;
      while i < |transforms|
        invariant 0 <= i <= |transforms|
        invariant arr == EncodeAll(transforms[..i])
      {
        arr := arr + [EncodeEntry(transforms[i])];
        i := i + 1;
      }
      assert transforms[..|transforms|] == transforms;
    }

    /** `from_json`, given the array the file holds. */
    static method FromJson(arr: seq<EncodedEntry>) returns (r: Result<TransformsList, DecodeError>)
      ensures r.Ok? <==> DecodeAll(arr).Ok?
      ensures r.Ok? ==> fresh(r.value) && r.value.transforms == DecodeAll(arr).value
      ensures r.Err? ==> r.error == DecodeAll(arr).error
    {
      var decoded := DecodeEntries(arr);
      match decoded {
        case Err(e) =>
          r := Err(e);
        case Ok(ts) =>
          var list := new TransformsList(Some(ts));
          r := Ok(list);
      }
    }
  }

  /** Writing a list and reading it back gives a list with the same entries. */
  method SaveAndLoad(list: TransformsList) returns (loaded: Result<TransformsList, DecodeError>)
    requires forall i :: 0 <= i < |list.transforms| ==>
               list.transforms[i].ttype in TypeMapping && list.transforms[i].transform.kind == TypeMapping[list.transforms[i].ttype]
    ensures loaded.Ok? && loaded.value.transforms == list.transforms
  {
    var arr := list.ToJson();
    ListRoundTrip(list.transforms);
    loaded := TransformsList.FromJson(arr);
  }
}

=== FILE: wrappers.dfy ===
/** Option and Result: the model's stand-ins for a missing value and for a raised exception. */
module Wrappers {

  datatype Option<+T> = None | Some(value: T)

  datatype Result<+T, +E> = Ok(value: T) | Err(error: E)
}
